=== FILE: README.md ===
# ConstructingACar — a Dafny model of the car simulator core

The repository simulates a car one second at a time. A `Car` owns:

- a **fuel tank**, whose fill level is clamped to 0..60 l;
- a **driving processor**, which holds the integer speed, an "accelerating" flag and a copy of the engine's running flag. From these it derives the fuel drawn per second.
- an **engine**, which starts only with fuel and stalls when the tank runs dry;
- an **on-board computer**.

Each simulated second, the on-board computer accumulates two independent scopes of counters, *trip* and *total*:

- real time;
- driving time;
- distance;
- fuel per second and fuel per 100 km.

It also keeps a window of the last 100 per-kilometre consumption samples, which feeds a range estimate.

The model is functional. Each class becomes a datatype, and each public operation becomes a pure transition function from state to state. The modules follow the classes of `ConstructingACar/Car.cs` and `ConstructingACar/Globals/Globals.cs`:

| file | module | models |
|---|---|---|
| `globals.dfy` | `Optional`, `Globals` | the NaN sentinel as `Option`; the constants and the `GetConsumption` speed-bracket table |
| `fuel_tank.dfy` | `FuelTanks` | `FuelTank` |
| `driving_processor.dfy` | `Processors` | `DrivingProcessor` |
| `engine.dfy` | `Engines` | `Engine`, holding its tank and processor |
| `on_board_computer.dfy` | `Computers` | `OnBoardComputer`: trip and total `Scope`s, the 100-sample window, the average helpers, the resets |
| `car.dfy` | `Cars` | `Car` and its operations, plus `Op`/`Step`/`Run` for replaying sequences of operations |
| `scenarios.dfy` | `Scenarios` | operation sequences of the NUnit tests (`ConstructingACar.Test/ConstructingACarTests.cs`) replayed on the model |

Modelling choices:

- **Fuel and consumption.** Litres and litres per second are Dafny `real`s, i.e. exact rationals.
- **Absent per-distance figure.** The simulator stores NaN when there is no per-distance consumption figure yet. The model uses `None` instead.
- **Speed sums.** The private `_tripSpeed`/`_totalSpeed` counters are each scope's `speedSum`. The simulator only writes them and never reads them. The model uses them to state that the distance is the sum of the per-second distances (`Computers.ScopeValid`, `Computers.AverageSpeedIsMeanSpeed`).
- **Invariants.** A car reached by *admissible* operations satisfies `Cars.Valid`. Admissible means braking and refuelling by non-negative amounts (`Cars.Admissible`, `Cars.RunPreservesValid`). `Car.Refuel` accepts any amount, and a negative refuel can take the fill level below 0. `Cars.Refuel` and `FuelTanks.Refuel` state that case too. `Cars.Valid` requires:
  - the maximum acceleration is in 5..20;
  - the speed is in 0..250;
  - the fuel is in 0..60;
  - a running engine has fuel;
  - driving time is at most real time;
  - distance equals 1000·(speed sum)/3600 metres;
  - the per-distance figure is absent exactly when the trip has no driving second;
  - every window sample is non-negative.

Behaviour of the code that a reader might not expect. The model reproduces it faithfully:

- **Accelerate toward a lower target.** `Car.Accelerate` with a target below the current speed calls `FreeWheel`, which lets a second elapse. It then calls `ElapseSecond` again, so **two** seconds elapse (`Cars.Accelerate`). A one-line description of the operation would suggest one second.
- **Stopping twice.** `Car.EngineStop` is not idempotent. A second stop lets another second elapse on the total scope (`Cars.EngineStopTwice`).
- **Start ticks first.** `Car.EngineStart` lets the second elapse *before* it tries to start. A start on an empty tank still advances the clocks, and the second it records is sampled with the engine still off.
- **`FreeWheel` has no engine guard.** With the engine off, the speed still drops, but no fuel is drawn and no second elapses.
- **Negative brake amounts.** `BrakeBy` with a negative amount raises the speed, because `ReduceSpeed` only floors at 0 and has no cap. `Cars.BrakeBy` states this case. The invariants are proved for non-negative amounts (`Cars.Admissible`).
- **A stall swallows the second.** When the draw of `Accelerate`, `FreeWheel` or `RunningIdle` empties the tank, the engine stops before `ElapseSecond` runs, so that second is not counted (`Scenarios.AccelerateStalls`).
- **Stopping keeps speed.** Stopping the engine clears neither the speed nor the accelerating flag.

## Model

| member | source | states |
|---|---|---|
| Globals.Clamp | ConstructingACar/Car.cs:42 | the result lies in [low, high], equals the value inside the range and the nearer bound outside it |
| Globals.GetConsumption | ConstructingACar/Globals/Globals.cs:20-47 | every rate lies in [0, 0.0030] and is positive exactly for speeds 1..250 |
| Globals.BracketsPartitionSpeeds | ConstructingACar/Globals/Globals.cs:25-39 | the five brackets 1–60, 61–100, 101–140, 141–200, 201–250 are pairwise disjoint and a speed lies in one of them iff it is in 1..250 |
| Globals.GetConsumptionFollowsTable | ConstructingACar/Globals/Globals.cs:20-43 | `GetConsumption` returns the rate of the one bracket holding the speed, and 0 when no bracket does (the default case) |
| Globals.ConsumptionNotMonotonic | ConstructingACar/Globals/Globals.cs:25-30 | every speed in 61..100 costs strictly less than every speed in 1..60 |
| Globals.ConstantsConsistent | ConstructingACar/Globals/Globals.cs:6-16 | MIN_ACCELERATION ≤ DEFAULT_ACCELERATION ≤ MAX_ACCELERATION (so clamping keeps the default), MIN_SPEED < MAX_SPEED, 0 < reserve < maximum fuel, default fuel within the tank, idle rate within the table's range |
| FuelTanks.New | ConstructingACar/Car.cs:241-244 | the constructor's level is clamped into [0, 60]: kept inside, 0 below, 60 above |
| FuelTanks.Consume | ConstructingACar/Car.cs:252-255 | the level never goes negative; it reaches 0 iff the draw is at least the level, otherwise drops by exactly the draw; a valid tank stays valid and never gains fuel |
| FuelTanks.Refuel | ConstructingACar/Car.cs:257-260 | the level never exceeds 60; it is 60 iff level + litres ≥ 60, otherwise rises by exactly the litres; a valid tank stays valid and never loses fuel |
| FuelTanks.IsOnReserve | ConstructingACar/Car.cs:248 | on reserve (strictly below 5 l, so exactly 5 l is not on reserve), drawing the 5 l reserve empties the tank; otherwise that draw leaves exactly level − 5 l |
| FuelTanks.IsComplete | ConstructingACar/Car.cs:250 | a complete tank is valid, not on reserve, and no refuel of a non-negative amount changes it |
| FuelTanks.ReserveIsNotComplete | ConstructingACar/Car.cs:248-250 | a tank on reserve is never complete, and topping up by the missing amount completes it |
| FuelTanks.RefuelThenConsume | ConstructingACar/Car.cs:252-260 | refuelling litres that fit and drawing the same litres gives back the same tank |
| FuelTanks.ConsumeTwice | ConstructingACar/Car.cs:252-255 | two draws equal one draw of their sum (the floor at 0 does not break this) |
| Processors.ActualConsumption | ConstructingACar/Car.cs:152-169 | the rate lies in [0, 0.0030]; it is positive iff the engine runs and the car either stands or accelerates at 1..250 km/h; 0 with the engine off, the idle rate at standstill, the table rate while accelerating, 0 while rolling |
| Processors.EngineStart | ConstructingACar/Car.cs:171-174 | starting sets only the running flag, keeping speed and accelerating flag; a standing processor then draws the idle rate |
| Processors.StartStopInverse | ConstructingACar/Car.cs:171-179 | start and stop each undo the other: they differ only in the running flag |
| Processors.SpeedSettersAgree | ConstructingACar/Car.cs:181-191 | for a speed in 0..250 both setters land on that speed; they differ only in the accelerating flag, which the last one decides |
| Processors.EngineStop | ConstructingACar/Car.cs:176-179 | after a stop nothing is consumed, and speed and accelerating flag are kept |
| Processors.IncreaseSpeedTo | ConstructingACar/Car.cs:181-185 | the speed becomes the requested one capped at 250, and the processor is accelerating |
| Processors.ReduceSpeed | ConstructingACar/Car.cs:187-191 | the speed becomes the requested one floored at 0 (no upper cap), and the processor is not accelerating |
| Engines.Start | ConstructingACar/Car.cs:221-228 | the engine runs afterwards iff it ran or the tank is non-empty; with an empty tank nothing changes; the tank is untouched; validity is kept |
| Engines.Stop | ConstructingACar/Car.cs:230-234 | the engine and the processor's copy of the flag are both off; tank, speed and accelerating flag are kept |
| Engines.StopIdempotent | ConstructingACar/Car.cs:230-234 | stopping twice is stopping once |
| Engines.Consume | ConstructingACar/Car.cs:209-219 | a stopped engine is unchanged; a running one draws from the tank and keeps running iff the tank is not empty, stalling (processor flag off) at 0; validity is kept and fuel never rises |
| Computers.SetupDefaultConsumption | ConstructingACar/Car.cs:335-345 | the queue holds exactly 100 samples, every one DEFAULT_CONSUMPTION; it is the window a fresh computer starts with (`DefaultWindow`) |
| Computers.LitresPerKm | ConstructingACar/Car.cs:369 | the per-kilometre sample is non-negative and times the speed gives 3600 × the per-second rate |
| Computers.ShiftWindow | ConstructingACar/Car.cs:365-371 | standing still leaves the window alone; moving drops the oldest sample and appends the current one, so the window keeps 100 samples and its sum changes by new − oldest |
| Computers.EstimatedRange | ConstructingACar/Car.cs:372 | the range is absent iff the window average is 0; otherwise range × window sum = fill level × 100, i.e. fill level / average |
| Computers.EstimatedRangeNonNegative | ConstructingACar/Car.cs:365-372 | a window of non-negative samples and a non-negative fill level never give a negative range |
| Computers.DefaultWindowRange | ConstructingACar/Car.cs:335-345 | with the default window the range is fill level / DEFAULT_CONSUMPTION |
| Computers.SecondsRequiredToDrive100Km | ConstructingACar/Car.cs:382-390 | 0 when standing; otherwise the truncated quotient: secs × speed ≤ 360000 < (secs + 1) × speed |
| Computers.AverageConsumptionByTime | ConstructingACar/Car.cs:347-350 | 0 before any second, otherwise the value that times the real time gives the sum |
| Computers.Accumulate | ConstructingACar/Car.cs:379-404 | one second adds 1 to real time, 1 to driving time and the speed to the speed sum iff moving, the second's metres to the distance, the rate to the by-time sum, a present per-distance figure to the by-distance sum; scope validity is kept |
| Computers.AverageSpeed | ConstructingACar/Car.cs:352-355 | 0 before any driving second |
| Computers.AverageSpeedIsMeanSpeed | ConstructingACar/Car.cs:352-355 | in a valid scope, (km driven) / (hours driven) is the mean of the speeds of the driving seconds |
| Computers.AverageConsumptionByDistance | ConstructingACar/Car.cs:357-360 | 0 before any driving second, otherwise the value that times the driving time gives the by-distance sum |
| Computers.DrivenDistance | ConstructingACar/Car.cs:307 | the whole metres are the distance truncated toward zero |
| Computers.Initial | ConstructingACar/Car.cs:296-333 | a fresh computer is valid, both scopes are empty, no per-distance figure, the window is the default window (every sample DEFAULT_CONSUMPTION), and the stored consumption by time and the stored range both start at 0 |
| Computers.PerDistance | ConstructingACar/Car.cs:385-397 | the per-distance figure is absent iff the trip has no driving second; otherwise it is the second's rate times the seconds 100 km take at this speed, so non-negative for a non-negative rate and 0 for a zero rate |
| Computers.ElapseSecond | ConstructingACar/Car.cs:377-410 | real time +1 in both scopes; driving time +1 and speed sum + speed iff speed > 0; both scopes' distances grow by the second's metres when moving and stay when standing; by-time rate is the processor's and is added to both sums; per-distance figure absent iff trip driving time is 0, otherwise the rate times the seconds 100 km take at this speed, added to both sums only when present; equal scopes stay equal; window shifted; range recomputed from the new window and the fill level; validity kept |
| Computers.TripReset | ConstructingACar/Car.cs:412-422 | the trip scope is emptied and the per-distance figure forgotten; total scope, window and other figures unchanged |
| Computers.TotalReset | ConstructingACar/Car.cs:424-433 | the total scope is emptied; everything else unchanged |
| Computers.ResetsIndependent | ConstructingACar/Car.cs:412-433 | the two resets commute and each is idempotent |
| Cars.New | ConstructingACar/Car.cs:34-45 | the new car is valid, the tank is clamped, the maximum acceleration is clamped into [5, 20], the engine is off at standstill, the computer is fresh |
| Cars.Default | ConstructingACar/Car.cs:26-28 | the parameterless car has 20 l and maximum acceleration 10 |
| Cars.Tick | ConstructingACar/Car.cs:56 | one second on the computer: the computer becomes `Computers.ElapseSecond` of the old computer, sampling the car's processor and tank; both real-time counters grow by 1; neither the engine nor the acceleration changes; validity is kept |
| Cars.ElapseSecond | ConstructingACar/Car.cs:52-58 | with the engine off nothing happens; with it on, the computer records one second sampling the current processor and tank, adding 1 to both real-time counters; the engine is never touched and validity is kept |
| Cars.BrakeBy | ConstructingACar/Car.cs:60-68 | engine off: nothing changes; engine on: one second elapses after the speed drops by min(amount, 10), never below 0, with the accelerating flag cleared; a negative amount raises the speed by its magnitude; validity kept for amounts ≥ 0 |
| Cars.RunningIdle | ConstructingACar/Car.cs:126-131 | engine off: nothing changes; engine on: the current rate is drawn, the engine keeps running iff fuel is left, and a second elapses only if it does |
| Cars.FreeWheel | ConstructingACar/Car.cs:105-118 | the speed drops by 1, never below 0, with the accelerating flag cleared, even with the engine off (then no fuel, no second); the tank is untouched unless the car comes to a standstill, where a running car draws the idle rate; a valid running car keeps running exactly when its tank is not empty afterwards; if the draw empties it the engine stalls and the computer is unchanged |
| Cars.Accelerate | ConstructingACar/Car.cs:70-88 | engine off: nothing changes; target ≥ speed: the speed becomes min(target, speed + maxAcceleration, 250), never falls, the car is accelerating, the rate for the new speed is drawn (`DrawnAt`) and, if the engine still runs, one second elapses; target < speed: freewheels, drawing only the idle rate and only on reaching standstill, and, if the engine still runs, two seconds elapse; a valid running car keeps running exactly when its tank is not empty afterwards, and a stall leaves the computer unchanged; the maximum acceleration never changes; validity kept and at most 0.0030 l drawn |
| Cars.DrawnAt | ConstructingACar/Car.cs:152-169 | what a running, accelerating processor draws at a speed: positive and at most 0.0030 l for speeds 0..250, equal to `ActualConsumption` of that processor |
| Cars.SpeedUp | ConstructingACar/Car.cs:81-84 | the new speed is min(target, speed + maxAcceleration, 250); a running car draws exactly the rate for the new speed (the idle rate if it is 0, the table rate otherwise), a stopped one nothing; a valid running car keeps running exactly when fuel is left; validity is kept |
| Cars.EngineStart | ConstructingACar/Car.cs:90-95 | the second that elapses samples the car before the start; afterwards the engine runs iff it ran or there is fuel |
| Cars.EngineStop | ConstructingACar/Car.cs:97-103 | the engine is off, the trip scope is empty, the per-distance figure is absent, nothing is consumed, the total scope gained one second |
| Cars.Refuel | ConstructingACar/Car.cs:120-124 | only the tank changes, as `FuelTank.Refuel` does, with no second elapsing; processor, computer and maximum acceleration are kept |
| Cars.TripReset | ConstructingACar/Car.cs:476 | the computer becomes `Computers.TripReset` of the old one: only the trip scope and the per-distance figure are cleared; engine and maximum acceleration are kept |
| Cars.TotalReset | ConstructingACar/Car.cs:478 | the computer becomes `Computers.TotalReset` of the old one: only the total scope is cleared; engine and maximum acceleration are kept |
| Cars.EngineStopTwice | ConstructingACar/Car.cs:97-103 | a second stop leaves engine and trip alike but adds one second to the total real time |
| Cars.Step | ConstructingACar/Car.cs:60-131 | every admissible operation keeps a valid car valid, no operation but refuelling adds fuel, the speed stays in [0, 250], no operation changes the maximum acceleration |
| Cars.RunKeepsMaxAcceleration | ConstructingACar/Car.cs:22 | the maximum acceleration is fixed at construction: no sequence of operations changes it |
| Cars.RunPreservesValid | ConstructingACar/Car.cs:60-131 | every sequence of admissible operations keeps the car valid |
| Cars.RunWithoutRefuelNeverGainsFuel | ConstructingACar/Car.cs:60-131 | from a valid car, no admissible sequence of operations without a refuel raises the fill level |
| Cars.AccelerateOnce | ConstructingACar/Car.cs:75-86 | one acceleration toward a target at or above the speed gains min(target, speed + maxAcceleration, 250) in one second with at most 0.0030 l |
| Cars.AccelerateRamp | ConstructingACar/Car.cs:70-88 | n accelerations toward a target give speed min(target, speed + n × maxAcceleration, 250) after n seconds with at most n × 0.0030 l drawn |
| Scenarios.StartedDefault | ConstructingACar.Test/ConstructingACarTests.cs:242-250 | a started default car stands, runs with 20 l, shows one second, draws nothing in that second and has no per-distance figure |
| Scenarios.ConsumptionSpeedUpTo30 | ConstructingACar.Test/ConstructingACarTests.cs:79-97 | a car built with 1 l and maximum acceleration 20, started and accelerated ten times toward 30 km/h, draws exactly 0.0020 l per acceleration and holds 0.98 l |
| Scenarios.TowardThirtyRun | ConstructingACar/Car.cs:70-88 | n accelerations toward 30 km/h with maximum acceleration 20 reach min(30, speed + 20n) and draw exactly n × 0.0020 l |
| Scenarios.AccelerateStalls | ConstructingACar/Car.cs:70-88 | a started car holding 0.002 l empties its tank on the first acceleration toward 10 km/h; the engine stalls and no second elapses |
| Scenarios.FreeWheelSpeed | ConstructingACar.Test/ConstructingACarTests.cs:22-37 | ten accelerations to 100 reach 100 km/h, three freewheels leave 97 km/h |
| Scenarios.AccelerateBy10 | ConstructingACar.Test/ConstructingACarTests.cs:40-58 | from 100 km/h four accelerations toward 160 give 140 km/h, one toward 145 gives 145 km/h |
| Scenarios.Braking | ConstructingACar.Test/ConstructingACarTests.cs:61-76 | from 100 km/h braking by 20 gives 90 km/h, then by 10 gives 80 km/h |
| Scenarios.RealAndDrivingTimeAfterDriving | ConstructingACar.Test/ConstructingACarTests.cs:115-139 | two idle seconds, six accelerations and two brakes give 11 seconds of real time and 8 of driving time in both scopes |
| Scenarios.AverageSpeed1 | ConstructingACar.Test/ConstructingACarTests.cs:166-185 | the driving seconds at 10, 20, 30, 20, 10 km/h average 18 km/h in both scopes |
| Scenarios.AverageSpeedAfterTripReset | ConstructingACar.Test/ConstructingACarTests.cs:212-239 | after a trip reset and two accelerations toward 20 the trip averages 15 km/h, the total 20 km/h |
| Scenarios.ActualConsumptionRunningIdle | ConstructingACar.Test/ConstructingACarTests.cs:253-263 | an idle second draws 0.0003 l with no per-distance figure |
| Scenarios.ActualConsumptionAccelerateTo100 | ConstructingACar.Test/ConstructingACarTests.cs:266-280 | accelerating to 100 km/h draws 0.0014 l/s, i.e. 5.04 l per 100 km |
| Scenarios.ActualConsumptionFreeWheel | ConstructingACar.Test/ConstructingACarTests.cs:283-299 | a freewheeling second draws nothing and shows 0 l per 100 km |
| Scenarios.ActualConsumptionAfterStop | ConstructingACar.Test/ConstructingACarTests.cs:389-419 | after driving, braking to standstill and stopping there is no per-distance figure, also after restarting |
| Scenarios.AverageConsumptionsAfterAccelerating | ConstructingACar.Test/ConstructingACarTests.cs:315-329 | start and three accelerations toward 30 km/h: both scopes average 0.0015 l/s and (72 + 36 + 24) / 3 = 44 l per 100 km |
| Scenarios.AverageConsumptionsAfterBraking | ConstructingACar.Test/ConstructingACarTests.cs:332-349 | then three brakes by 10 km/h: both scopes average 0.0063 / 7 = 0.0009 l/s and 132 / 5 = 26.4 l per 100 km |
| Scenarios.AverageConsumptionsAfterAcceleratingAndReset | ConstructingACar.Test/ConstructingACarTests.cs:422-441 | three accelerations then a trip reset: trip average 0, total 0.0015 l/s; three more then a total reset: trip 0.0020 l/s, total 0 |
| Scenarios.BrakeBeforeStarting | ConstructingACar.Test/ConstructingACarTests.cs:444-451 | braking a car that was never started changes nothing and no second elapses |

## Left out

- `Console.WriteLine` logging in `Car`: output only, with no effect on state.
- `DrivingInformationDisplay`, `FuelTankDisplay`, `OnBoardComputerDisplay`: pass-throughs that round for display. Only the two resets they forward are modelled (`Cars.TripReset`, `Cars.TotalReset`).
- `Interfaces.cs` (declarations only) and `ConstructingACar.Exe/Program.cs` (an interactive driver): neither is part of this model.
- IEEE-754 double arithmetic: all fuel figures are exact rationals. The tests' 0.98 l, 0.0015 and 0.0009 l/s and 44 and 26.4 l per 100 km are exact there and are proved (`Scenarios.ConsumptionSpeedUpTo30`, `Scenarios.AverageConsumptionsAfterAccelerating`, `Scenarios.AverageConsumptionsAfterBraking`). The expectations that need the display rounding are not restated: the range 393, the distance 0.24 km and the average speed 21.4.
- Computers.EstimatedRange: gives the exact ratio fill level / window average, without `Math.Round` and the `(int)` cast. It is absent where the simulator would divide by a zero average, which yields Infinity or NaN before the cast.
- Computers.AverageConsumptionByDistance: the exact mean, without the rounding to one decimal.
- Cars.BrakeBy: does not model the 32-bit wrap-around of `speed - amount` for amounts near `int.MinValue`, where the simulator's speed would wrap and then floor at 0.
- Cars.Accelerate: does not model the 32-bit wrap-around of `speed + maxAcceleration` (Car.cs:81). A negative brake can raise the speed near `int.MaxValue`, for example to 2147483640. Then the simulator's sum wraps negative, the comparison with the target fails, and the wrapped negative speed is stored. The model instead promises min(target, speed + maxAcceleration, 250).
- Cars.SpeedUp: does not model the wrap of `speed + maxAcceleration` described for Cars.Accelerate; it computes the same unbounded sum.
- Computers.ElapseSecond: the counters are unbounded integers, and their 32-bit overflow is not modelled. The speed sums can grow by up to 250 per second, so they overflow first, after about 8.6 million seconds of driving. They are never read, so this has no visible effect. The real-time and driving-time counters overflow only after about 2^31 seconds.
- NaN or infinite arguments to `FuelTank`, `Refuel` and `Consume` are outside the model.

=== FILE: car.dfy ===
/** The car (class `Car` in Car.cs): it owns one engine (with its fuel tank
    and driving processor) and one on-board computer. Each public operation
    changes the processor and engine, then lets one second elapse on the
    computer if the engine is still running; starting and stopping the
    engine let a second elapse whatever the engine does. */
module Cars {

  import opened Globals
  import opened Optional
  import FuelTanks
  import Processors
  import Engines
  import Computers

  datatype Car = Car(maxAcceleration: int, engine: Engines.Engine, computer: Computers.Computer)

  function Speed(c: Car): int { c.engine.processor.actualSpeed }

  function FillLevel(c: Car): real { c.engine.tank.fillLevel }

  predicate Running(c: Car) { c.engine.isRunning }

  function TripRealTime(c: Car): int { c.computer.trip.realTime }

  function TotalRealTime(c: Car): int { c.computer.total.realTime }

  /** The state every reachable car is in. */
  predicate Valid(c: Car) {
    && MIN_ACCELERATION <= c.maxAcceleration <= MAX_ACCELERATION
    && Engines.Valid(c.engine)
    && Processors.Valid(c.engine.processor)
    && Computers.Valid(c.computer)
  }

  /** `new Car(fuelLevel, maxAcceleration)`: both arguments are clamped. */
  function New(fuelLevel: real, maxAcceleration: int): (c: Car)
    ensures Valid(c)
    ensures c.engine.tank == FuelTanks.New(fuelLevel)
    ensures MIN_ACCELERATION <= maxAcceleration <= MAX_ACCELERATION ==> c.maxAcceleration == maxAcceleration
    ensures maxAcceleration < MIN_ACCELERATION ==> c.maxAcceleration == MIN_ACCELERATION
    ensures maxAcceleration > MAX_ACCELERATION ==> c.maxAcceleration == MAX_ACCELERATION
    ensures !Running(c) && Speed(c) == 0 && !c.engine.processor.accelerating
    ensures c.computer == Computers.Initial()
  {
    Car(
      Clamp(maxAcceleration, MIN_ACCELERATION, MAX_ACCELERATION),
      Engines.Engine(false, FuelTanks.New(fuelLevel), Processors.Initial),
      Computers.Initial())
  }

  /** `new Car()`: the defaults pass the clamps unchanged. */
  function Default(): (c: Car)
    ensures Valid(c) && !Running(c) && Speed(c) == 0
    ensures FillLevel(c) == DEFAULT_FUEL_LEVEL && c.maxAcceleration == DEFAULT_ACCELERATION
  {
    New(DEFAULT_FUEL_LEVEL, DEFAULT_ACCELERATION)
  }

  /** One second on the computer, whatever the engine does. */
  function Tick(c: Car): (r: Car)
    ensures r.maxAcceleration == c.maxAcceleration && r.engine == c.engine
    ensures TripRealTime(r) == TripRealTime(c) + 1 && TotalRealTime(r) == TotalRealTime(c) + 1
    ensures r.computer == Computers.ElapseSecond(c.computer, c.engine.processor, c.engine.tank)
    ensures Valid(c) ==> Valid(r)
  {
    c.(computer := Computers.ElapseSecond(c.computer, c.engine.processor, c.engine.tank))
  }

  /** The car's private `ElapseSecond`: one second only while the engine runs. */
  function ElapseSecond(c: Car): (r: Car)
    ensures !Running(c) ==> r == c
    ensures r.maxAcceleration == c.maxAcceleration && r.engine == c.engine
    ensures Running(c) ==> r.computer == Computers.ElapseSecond(c.computer, c.engine.processor, c.engine.tank)
    ensures Running(c) ==> TripRealTime(r) == TripRealTime(c) + 1 && TotalRealTime(r) == TotalRealTime(c) + 1
    ensures Valid(c) ==> Valid(r)
  {
    if Running(c) then Tick(c) else c
  }

  /** Brakes by `amount`, at most MAX_BRAKE, never below standstill. With
      the engine off nothing at all changes. */
  function BrakeBy(c: Car, amount: int): (r: Car)
    ensures !Running(c) ==> r == c
    ensures Running(c) ==> Running(r) && !r.engine.processor.accelerating
    ensures Running(c) ==> TripRealTime(r) == TripRealTime(c) + 1 && TotalRealTime(r) == TotalRealTime(c) + 1
    ensures Running(c) && Speed(c) >= 0 && amount >= 0 ==>
              Speed(c) - Speed(r) == Min(Min(amount, MAX_BRAKE), Speed(c))
    ensures Running(c) && Speed(c) >= 0 && amount < 0 ==> Speed(r) == Speed(c) - amount
    ensures r.engine.tank == c.engine.tank && r.maxAcceleration == c.maxAcceleration
    ensures Running(c) ==> r.computer == Computers.ElapseSecond(c.computer, r.engine.processor, r.engine.tank)
    ensures Valid(c) && amount >= 0 ==> Valid(r)
  {
    if Running(c) then
      var processor := Processors.ReduceSpeed(c.engine.processor, Speed(c) - Min(amount, MAX_BRAKE));
      ElapseSecond(c.(engine := c.engine.(processor := processor)))
    else
      c
  }

  /** Burns the current consumption and lets a second elapse if the engine
      survives it. */
  function RunningIdle(c: Car): (r: Car)
    ensures !Running(c) ==> r == c
    ensures Running(c) ==>
              r.engine.tank == FuelTanks.Consume(c.engine.tank, Processors.ActualConsumption(c.engine.processor))
    ensures Running(c) ==> (Running(r) <==> FillLevel(r) != 0.0)
    ensures Running(r) ==> r.computer == Computers.ElapseSecond(c.computer, r.engine.processor, r.engine.tank)
    ensures !Running(r) ==> r.computer == c.computer
    ensures Speed(r) == Speed(c) && r.engine.processor.accelerating == c.engine.processor.accelerating
    ensures r.maxAcceleration == c.maxAcceleration
    ensures Valid(c) ==> Valid(r) && FillLevel(c) - MAX_TABLE_CONSUMPTION <= FillLevel(r) <= FillLevel(c)
  {
    var engine := Engines.Consume(c.engine, Processors.ActualConsumption(c.engine.processor));
    ElapseSecond(c.(engine := engine))
  }

  /** Slows by FREEWHEEL_DECELERATION, never below standstill. This has no
      engine guard: with the engine off the speed still drops, though no
      fuel is drawn and no second elapses. Reaching standstill with the
      engine on continues as `RunningIdle`. */
  function FreeWheel(c: Car): (r: Car)
    ensures Speed(c) > MIN_SPEED ==> Speed(r) == Speed(c) - FREEWHEEL_DECELERATION
    ensures Speed(c) <= MIN_SPEED ==> Speed(r) == MIN_SPEED
    ensures !r.engine.processor.accelerating && r.maxAcceleration == c.maxAcceleration
    ensures !Running(c) ==> r.computer == c.computer && r.engine.tank == c.engine.tank && !Running(r)
    ensures Speed(r) != MIN_SPEED ==> r.engine.tank == c.engine.tank
    ensures Valid(c) && Running(c) && Speed(r) == MIN_SPEED ==>
              r.engine.tank == FuelTanks.Consume(c.engine.tank, IDLE_FUEL_CONSUMPTION)
    ensures Running(r) ==> r.computer == Computers.ElapseSecond(c.computer, r.engine.processor, r.engine.tank)
    ensures !Running(r) ==> r.computer == c.computer
    ensures Valid(c) ==> Valid(r) && FillLevel(c) - MAX_TABLE_CONSUMPTION <= FillLevel(r) <= FillLevel(c)
    ensures Valid(c) && Running(c) && FillLevel(c) > MAX_TABLE_CONSUMPTION ==> Running(r)
    ensures Valid(c) && Running(c) ==> (Running(r) <==> FillLevel(r) != 0.0)
  {
    var processor := Processors.ReduceSpeed(c.engine.processor, Speed(c) - FREEWHEEL_DECELERATION);
    var slowed := c.(engine := c.engine.(processor := processor));
    if Speed(slowed) == 0 then RunningIdle(slowed) else ElapseSecond(slowed)
  }

  /** Moves toward `target` by at most `maxAcceleration` per call (and never
      above MAX_SPEED), drawing the rate `DrawnAt` gives for the new speed.
      A target below the current speed freewheels instead. Either way the
      car's `ElapseSecond` runs afterwards, so the freewheeling path lets TWO
      seconds elapse. With the engine off nothing changes, and a draw that
      empties the tank stalls the engine so that no second elapses. */
  function Accelerate(c: Car, target: int): (r: Car)
    ensures !Running(c) ==> r == c
    ensures !Running(r) ==> r.computer == c.computer
    ensures r.maxAcceleration == c.maxAcceleration
    ensures Valid(c) && Running(c) && target >= Speed(c) ==>
              r.engine.tank == FuelTanks.Consume(c.engine.tank, DrawnAt(Speed(r)))
    ensures Valid(c) && Running(c) && target < Speed(c) ==>
              r.engine.tank == (if Speed(r) == MIN_SPEED then FuelTanks.Consume(c.engine.tank, IDLE_FUEL_CONSUMPTION)
                                else c.engine.tank)
    ensures Valid(c) ==> Valid(r) && FillLevel(c) - MAX_TABLE_CONSUMPTION <= FillLevel(r) <= FillLevel(c)
    ensures Valid(c) && Running(c) && target >= Speed(c) ==>
              && Speed(r) == Min(Min(target, Speed(c) + c.maxAcceleration), MAX_SPEED)
              && Speed(c) <= Speed(r)
              && r.engine.processor.accelerating
    ensures Valid(c) && Running(c) && target < Speed(c) ==>
              Speed(r) == Max(Speed(c) - FREEWHEEL_DECELERATION, MIN_SPEED) && !r.engine.processor.accelerating
    ensures Valid(c) && Running(c) && FillLevel(c) > MAX_TABLE_CONSUMPTION ==> Running(r)
    ensures Valid(c) && Running(c) ==> (Running(r) <==> FillLevel(r) != 0.0)
    ensures target >= Speed(c) && Running(r) ==>
              r.computer == Computers.ElapseSecond(c.computer, r.engine.processor, r.engine.tank)
    ensures target < Speed(c) && Running(r) ==>
              r.computer == Computers.ElapseSecond(
                Computers.ElapseSecond(c.computer, r.engine.processor, r.engine.tank),
                r.engine.processor, r.engine.tank)
    ensures target < Speed(c) && Running(r) ==>
              TripRealTime(r) == TripRealTime(c) + 2 && TotalRealTime(r) == TotalRealTime(c) + 2
  {
    if Running(c) then
      var moved := if target < Speed(c) then FreeWheel(c) else SpeedUp(c, target);
      ElapseSecond(moved)
    else
      c
  }

  /** Litres an accelerating, running car draws in one second at `speed`:
      the idle rate at standstill, otherwise the table rate. */
  function DrawnAt(speed: int): (litres: real)
    ensures 0.0 <= litres <= MAX_TABLE_CONSUMPTION
    ensures MIN_SPEED <= speed <= MAX_SPEED ==> litres > 0.0
    ensures litres == Processors.ActualConsumption(Processors.DrivingProcessor(speed, true, true))
  {
    if speed == 0 then IDLE_FUEL_CONSUMPTION else GetConsumption(speed)
  }

  /** The accelerating branch of `Accelerate` before the second elapses:
      the new speed is the target, but at most `maxAcceleration` above the
      current speed, and the rate `DrawnAt` gives for it is drawn. */
  function SpeedUp(c: Car, target: int): (r: Car)
    ensures r.computer == c.computer && r.maxAcceleration == c.maxAcceleration
    ensures r.engine.processor.accelerating
    ensures Speed(c) <= target ==> Speed(r) == Min(Min(target, Speed(c) + c.maxAcceleration), MAX_SPEED)
    ensures Valid(c) && Speed(c) <= target ==> Speed(c) <= Speed(r)
    ensures Valid(c) ==> Valid(r) && FillLevel(c) - MAX_TABLE_CONSUMPTION <= FillLevel(r) <= FillLevel(c)
    ensures Valid(c) && Running(c) && FillLevel(c) > MAX_TABLE_CONSUMPTION ==> Running(r)
    ensures Valid(c) && Running(c) ==> r.engine.tank == FuelTanks.Consume(c.engine.tank, DrawnAt(Speed(r)))
    ensures !Running(c) ==> r.engine.tank == c.engine.tank
    ensures Valid(c) && Running(c) ==> (Running(r) <==> FillLevel(r) != 0.0)
  {
    var speed := Speed(c);
    var newSpeed := if speed + c.maxAcceleration > target then Max(target, speed) else speed + c.maxAcceleration;
    var faster := c.engine.(processor := Processors.IncreaseSpeedTo(c.engine.processor, newSpeed));
    c.(engine := Engines.Consume(faster, Processors.ActualConsumption(faster.processor)))
  }

  /** Lets a second elapse FIRST (sampling the car as it was), then tries to
      start the engine, which needs fuel. A failed start still advances the
      clocks. */
  function EngineStart(c: Car): (r: Car)
    ensures r.computer == Computers.ElapseSecond(c.computer, c.engine.processor, c.engine.tank)
    ensures r.computer.actualConsumptionByTime == Processors.ActualConsumption(c.engine.processor)
    ensures Running(r) <==> Running(c) || FillLevel(c) > 0.0
    ensures FillLevel(c) > 0.0 ==> r.engine.processor.engineRunning
    ensures Speed(r) == Speed(c) && r.engine.tank == c.engine.tank && r.maxAcceleration == c.maxAcceleration
    ensures Valid(c) ==> Valid(r)
  {
    var ticked := Tick(c);
    ticked.(engine := Engines.Start(ticked.engine))
  }

  /** Stops the engine, lets a second elapse, then resets the trip scope. */
  function EngineStop(c: Car): (r: Car)
    ensures !Running(r) && !r.engine.processor.engineRunning
    ensures r.computer.trip == Computers.EmptyScope && r.computer.actualConsumptionByDistance.None?
    ensures r.computer.actualConsumptionByTime == 0.0
    ensures r.computer == Computers.TripReset(Computers.ElapseSecond(c.computer, r.engine.processor, r.engine.tank))
    ensures TotalRealTime(r) == TotalRealTime(c) + 1
    ensures Speed(c) > 0 ==> r.computer.total.drivingTime == c.computer.total.drivingTime + 1
    ensures Speed(r) == Speed(c) && r.engine.tank == c.engine.tank && r.maxAcceleration == c.maxAcceleration
    ensures Valid(c) ==> Valid(r)
  {
    var stopped := c.(engine := Engines.Stop(c.engine));
    var ticked := Tick(stopped);
    ticked.(computer := Computers.TripReset(ticked.computer))
  }

  /** Adds fuel up to the tank's capacity; no second elapses. */
  function Refuel(c: Car, litres: real): (r: Car)
    ensures r.engine.tank == FuelTanks.Refuel(c.engine.tank, litres)
    ensures r.computer == c.computer && r.engine.processor == c.engine.processor && Running(r) == Running(c)
    ensures r.maxAcceleration == c.maxAcceleration
    ensures Valid(c) && litres >= 0.0 ==> Valid(r) && FillLevel(r) >= FillLevel(c)
  {
    c.(engine := c.engine.(tank := FuelTanks.Refuel(c.engine.tank, litres)))
  }

  /** The trip reset offered through the on-board computer's display. */
  function TripReset(c: Car): (r: Car)
    ensures r.engine == c.engine && r.maxAcceleration == c.maxAcceleration
    ensures r.computer == Computers.TripReset(c.computer)
    ensures r.computer.total == c.computer.total
    ensures r.computer.trip == Computers.EmptyScope && r.computer.actualConsumptionByDistance.None?
    ensures Valid(c) ==> Valid(r)
  {
    c.(computer := Computers.TripReset(c.computer))
  }

  /** The total reset offered through the on-board computer's display. */
  function TotalReset(c: Car): (r: Car)
    ensures r.engine == c.engine && r.maxAcceleration == c.maxAcceleration
    ensures r.computer == Computers.TotalReset(c.computer)
    ensures r.computer.trip == c.computer.trip
    ensures r.computer.total == Computers.EmptyScope
    ensures Valid(c) ==> Valid(r)
  {
    c.(computer := Computers.TotalReset(c.computer))
  }

  /** Stopping twice is not the same as stopping once: the engine and the
      trip scope end up alike, but the second stop lets one more second
      elapse on the total scope. */
  lemma EngineStopTwice(c: Car)
    ensures EngineStop(EngineStop(c)).engine == EngineStop(c).engine
    ensures EngineStop(EngineStop(c)).computer.trip == EngineStop(c).computer.trip
    ensures TotalRealTime(EngineStop(EngineStop(c))) == TotalRealTime(EngineStop(c)) + 1
  {
  }

  /** The operations a driver can issue. */
  datatype Op =
    | StartEngine
    | StopEngine
    | AccelerateTo(target: int)
    | Brake(amount: int)
    | Coast
    | Idle
    | AddFuel(litres: real)
    | ResetTrip
    | ResetTotal

  /** Braking and refuelling by a negative amount are outside what the
      operations are meant for. */
  predicate Admissible(op: Op) {
    match op
    case Brake(amount) => amount >= 0
    case AddFuel(litres) => litres >= 0.0
    case _ => true
  }

  function Step(c: Car, op: Op): (r: Car)
    ensures r.maxAcceleration == c.maxAcceleration
    ensures Valid(c) && Admissible(op) ==> Valid(r)
    ensures Valid(c) && !op.AddFuel? ==> FillLevel(r) <= FillLevel(c)
    ensures Valid(c) ==> MIN_SPEED <= Speed(r) && (Admissible(op) ==> Speed(r) <= MAX_SPEED)
  {
    match op
    case StartEngine => EngineStart(c)
    case StopEngine => EngineStop(c)
    case AccelerateTo(target) => Accelerate(c, target)
    case Brake(amount) => BrakeBy(c, amount)
    case Coast => FreeWheel(c)
    case Idle => RunningIdle(c)
    case AddFuel(litres) => Refuel(c, litres)
    case ResetTrip => TripReset(c)
    case ResetTotal => TotalReset(c)
  }

  /** Replays a sequence of operations from `c`. */
  function Run(c: Car, ops: seq<Op>): Car
    decreases |ops|
  {
    if |ops| == 0 then c else Run(Step(c, ops[0]), ops[1..])
  }

  predicate AllAdmissible(ops: seq<Op>) {
    forall i :: 0 <= i < |ops| ==> Admissible(ops[i])
  }

  /** `maxAcceleration` is fixed at construction: no sequence of operations
      changes it. */
  lemma {:induction false} RunKeepsMaxAcceleration(c: Car, ops: seq<Op>)
    ensures Run(c, ops).maxAcceleration == c.maxAcceleration
    decreases |ops|
  {
    if |ops| > 0 {
      RunKeepsMaxAcceleration(Step(c, ops[0]), ops[1..]);
    }
  }

  /** Every admissible sequence of operations keeps the car valid: speed in
      [0, MAX_SPEED], fuel in [0, MAXIMUM_FUEL_LEVEL], the engine running
      only with fuel, driving time within real time, and so on. */
  lemma {:induction false} RunPreservesValid(c: Car, ops: seq<Op>)
    requires Valid(c) && AllAdmissible(ops)
    ensures Valid(Run(c, ops))
    decreases |ops|
  {
    if |ops| > 0 {
      assert Admissible(ops[0]);
      assert AllAdmissible(ops[1..]) by {
        forall i | 0 <= i < |ops[1..]| ensures Admissible(ops[1..][i]) {
          assert ops[1..][i] == ops[i + 1];
        }
      }
      RunPreservesValid(Step(c, ops[0]), ops[1..]);
    }
  }

  /** Without a refuel, no sequence of operations adds fuel to the tank. */
  lemma {:induction false} RunWithoutRefuelNeverGainsFuel(c: Car, ops: seq<Op>)
    requires Valid(c) && AllAdmissible(ops)
    requires forall i :: 0 <= i < |ops| ==> !ops[i].AddFuel?
    ensures FillLevel(Run(c, ops)) <= FillLevel(c)
    decreases |ops|
  {
    if |ops| > 0 {
      var next := Step(c, ops[0]);
      assert Admissible(ops[0]) && !ops[0].AddFuel?;
      assert AllAdmissible(ops[1..]) && forall i :: 0 <= i < |ops[1..]| ==> !ops[1..][i].AddFuel? by {
        forall i | 0 <= i < |ops[1..]| ensures Admissible(ops[1..][i]) && !ops[1..][i].AddFuel? {
          assert ops[1..][i] == ops[i + 1];
        }
      }
      RunWithoutRefuelNeverGainsFuel(next, ops[1..]);
    }
  }

  /** `n` copies of one operation. */
  function Repeat(op: Op, n: nat): (ops: seq<Op>)
    ensures |ops| == n && forall i :: 0 <= i < n ==> ops[i] == op
  {
    seq(n, _ => op)
  }

  /** Replaying `a` then `b` is replaying `a + b`. */
  lemma {:induction false} RunAppend(c: Car, a: seq<Op>, b: seq<Op>)
    ensures Run(c, a + b) == Run(Run(c, a), b)
    decreases |a|
  {
    if |a| == 0 {
      assert a + b == b;
    } else {
      assert (a + b)[0] == a[0];
      assert (a + b)[1..] == a[1..] + b;
      RunAppend(Step(c, a[0]), a[1..], b);
    }
  }

  /** Replaying a non-empty sequence is one step followed by the rest. */
  lemma RunFirst(c: Car, ops: seq<Op>)
    requires |ops| > 0
    ensures Run(c, ops) == Run(Step(c, ops[0]), ops[1..])
  {
  }

  /** What `n` accelerations toward `target` do to the car `c`, ending in `r`. */
  predicate Ramped(c: Car, r: Car, target: int, n: nat) {
    && Valid(r)
    && Running(r)
    && Speed(r) == Min(Min(target, Speed(c) + n * c.maxAcceleration), MAX_SPEED)
    && (n == 0 ==> r == c)
    && (n > 0 ==> r.engine.processor.accelerating)
    && r.maxAcceleration == c.maxAcceleration
    && FillLevel(r) >= FillLevel(c) - (n as real) * MAX_TABLE_CONSUMPTION
    && TripRealTime(r) == TripRealTime(c) + n
    && TotalRealTime(r) == TotalRealTime(c) + n
  }

  /** One acceleration with more than a second's worth of fuel. */
  lemma AccelerateOnce(c: Car, target: int)
    requires Valid(c) && Running(c) && target >= Speed(c)
    requires FillLevel(c) > MAX_TABLE_CONSUMPTION
    ensures Ramped(c, Accelerate(c, target), target, 1)
  {
  }

  /** One ramp step followed by `n - 1` more is a ramp of `n` steps. */
  lemma RampCompose(c: Car, m: Car, r: Car, target: int, n: nat)
    requires n > 0 && target >= Speed(c)
    requires Ramped(c, m, target, 1) && Ramped(m, r, target, n - 1)
    ensures Ramped(c, r, target, n)
  {
    var a := c.maxAcceleration;
    assert m.maxAcceleration == a;
    if n == 1 {
      assert r == m;
    } else {
      var k := (n - 1) * a;
      assert a >= MIN_ACCELERATION;
      MulNonNegative(n - 1, a);
      assert n * a == a + k;
      RampSpeed(Speed(c), target, a, k);
      assert Speed(r) == Min(Min(target, Speed(c) + n * a), MAX_SPEED);
      assert FillLevel(r) >= FillLevel(c) - (n as real) * MAX_TABLE_CONSUMPTION;
    }
  }

  lemma MulNonNegative(x: int, y: int)
    requires x >= 0 && y >= 0
    ensures x * y >= 0
  {
  }

  /** The speed arithmetic of a ramp: one capped step of `a`, then capped
      steps worth `k` more, equals capped steps worth `a + k`. */
  lemma RampSpeed(s: int, target: int, a: int, k: int)
    requires target >= s && a >= 0 && k >= 0
    ensures Min(Min(target, Min(Min(target, s + a), MAX_SPEED) + k), MAX_SPEED)
            == Min(Min(target, s + a + k), MAX_SPEED)
  {
  }

  /** `n` accelerations toward a target at or above the current speed bring
      the speed `maxAcceleration` closer per call, without overshooting the
      target or MAX_SPEED, one second per call, as long as the fuel lasts. */
  lemma {:induction false} AccelerateRamp(c: Car, target: int, n: nat)
    requires Valid(c) && Running(c) && target >= Speed(c)
    requires FillLevel(c) > (n as real) * MAX_TABLE_CONSUMPTION
    ensures Ramped(c, Run(c, Repeat(AccelerateTo(target), n)), target, n)
    decreases n
  {
    if n > 0 {
      var next := Accelerate(c, target);
      RunRepeat(c, AccelerateTo(target), n);
      AccelerateOnce(c, target);
      assert FillLevel(next) > ((n - 1) as real) * MAX_TABLE_CONSUMPTION;
      AccelerateRamp(next, target, n - 1);
      RampCompose(c, next, Run(c, Repeat(AccelerateTo(target), n)), target, n);
    } else {
      assert Repeat(AccelerateTo(target), n) == [];
    }
  }

  /** Replaying `n > 0` copies of `op` is one step followed by `n - 1` copies. */
  lemma RunRepeat(c: Car, op: Op, n: nat)
    requires n > 0
    ensures Run(c, Repeat(op, n)) == Run(Step(c, op), Repeat(op, n - 1))
  {
    var ops := Repeat(op, n);
    assert ops[1..] == Repeat(op, n - 1);
    RunFirst(c, ops);
  }
}

=== FILE: driving_processor.dfy ===
/** The driving processor (class `DrivingProcessor` in Car.cs): the current
    speed, whether the last speed change was an increase, and a copy of the
    engine's running flag. Together they decide the consumption per second. */
module Processors {

  import opened Globals

  datatype DrivingProcessor = DrivingProcessor(actualSpeed: int, accelerating: bool, engineRunning: bool)

  /** A freshly built processor: standing, not accelerating, engine off. */
  const Initial: DrivingProcessor := DrivingProcessor(0, false, false)

  predicate Valid(p: DrivingProcessor) {
    MIN_SPEED <= p.actualSpeed <= MAX_SPEED
  }

  /** Litres drawn in the current second. Nothing is drawn with the engine
      off or while rolling without accelerating; standing still draws the
      idle rate; accelerating draws the table rate for the speed. */
  function ActualConsumption(p: DrivingProcessor): (litres: real)
    ensures 0.0 <= litres <= MAX_TABLE_CONSUMPTION
    ensures litres > 0.0 <==>
              p.engineRunning && (p.actualSpeed == 0 || (p.accelerating && MIN_SPEED < p.actualSpeed <= MAX_SPEED))
    ensures !p.engineRunning ==> litres == 0.0
    ensures p.engineRunning && p.actualSpeed == 0 ==> litres == IDLE_FUEL_CONSUMPTION
    ensures p.engineRunning && p.actualSpeed != 0 && p.accelerating ==> litres == GetConsumption(p.actualSpeed)
    ensures p.engineRunning && p.actualSpeed != 0 && !p.accelerating ==> litres == 0.0
  {
    if p.engineRunning && p.actualSpeed == 0 then IDLE_FUEL_CONSUMPTION
    else if p.engineRunning && p.accelerating then GetConsumption(p.actualSpeed)
    else 0.0
  }

  /** Switching the engine on leaves speed and the accelerating flag alone;
      standing still now draws the idle rate. */
  function EngineStart(p: DrivingProcessor): (r: DrivingProcessor)
    ensures r.engineRunning
    ensures r.actualSpeed == p.actualSpeed && r.accelerating == p.accelerating
    ensures r.actualSpeed == 0 ==> ActualConsumption(r) == IDLE_FUEL_CONSUMPTION
  {
    p.(engineRunning := true)
  }

  /** Switching the engine off leaves speed and the accelerating flag alone,
      but from now on nothing is consumed. */
  function EngineStop(p: DrivingProcessor): (r: DrivingProcessor)
    ensures !r.engineRunning && ActualConsumption(r) == 0.0
    ensures r.actualSpeed == p.actualSpeed && r.accelerating == p.accelerating
  {
    p.(engineRunning := false)
  }

  /** Sets the speed, capped at MAX_SPEED, and marks the processor as accelerating. */
  function IncreaseSpeedTo(p: DrivingProcessor, speed: int): (r: DrivingProcessor)
    ensures r.accelerating && r.engineRunning == p.engineRunning
    ensures r.actualSpeed <= MAX_SPEED
    ensures speed <= MAX_SPEED ==> r.actualSpeed == speed
    ensures speed > MAX_SPEED ==> r.actualSpeed == MAX_SPEED
  {
    p.(actualSpeed := Min(speed, MAX_SPEED), accelerating := true)
  }

  /** Sets the speed, floored at MIN_SPEED, and clears the accelerating flag.
      There is no upper cap. */
  function ReduceSpeed(p: DrivingProcessor, speed: int): (r: DrivingProcessor)
    ensures !r.accelerating && r.engineRunning == p.engineRunning
    ensures r.actualSpeed >= MIN_SPEED
    ensures speed >= MIN_SPEED ==> r.actualSpeed == speed
    ensures speed < MIN_SPEED ==> r.actualSpeed == MIN_SPEED
  {
    p.(actualSpeed := Max(speed, MIN_SPEED), accelerating := false)
  }

  /** Starting and stopping only flip the running flag: each undoes the other. */
  lemma StartStopInverse(p: DrivingProcessor)
    ensures EngineStop(EngineStart(p)) == EngineStop(p)
    ensures EngineStart(EngineStop(p)) == EngineStart(p)
    ensures !p.engineRunning ==> EngineStop(EngineStart(p)) == p
    ensures p.engineRunning ==> EngineStart(EngineStop(p)) == p
  {
  }

  /** For a speed inside the legal range both setters land on that speed;
      they differ only in the accelerating flag. */
  lemma SpeedSettersAgree(p: DrivingProcessor, speed: int)
    requires MIN_SPEED <= speed <= MAX_SPEED
    ensures IncreaseSpeedTo(p, speed).actualSpeed == speed == ReduceSpeed(p, speed).actualSpeed
    ensures IncreaseSpeedTo(ReduceSpeed(p, speed), speed) == IncreaseSpeedTo(p, speed)
    ensures ReduceSpeed(IncreaseSpeedTo(p, speed), speed) == ReduceSpeed(p, speed)
  {
  }
}

=== FILE: engine.dfy ===
/** The engine (class `Engine` in Car.cs). It owns the running flag and works
    on the fuel tank and the driving processor it was built with, so the
    model keeps the three together. */
module Engines {

  import opened Globals
  import FuelTanks
  import Processors

  datatype Engine = Engine(isRunning: bool, tank: FuelTanks.FuelTank, processor: Processors.DrivingProcessor)

  /** The tank is within bounds, the processor's copy of the running flag
      agrees with the engine, and a running engine always has fuel. */
  predicate Valid(e: Engine) {
    && FuelTanks.Valid(e.tank)
    && e.isRunning == e.processor.engineRunning
    && (e.isRunning ==> e.tank.fillLevel > 0.0)
  }

  /** Starts only when there is fuel; otherwise nothing changes. */
  function Start(e: Engine): (r: Engine)
    ensures r.isRunning <==> e.isRunning || e.tank.fillLevel > 0.0
    ensures e.tank.fillLevel > 0.0 ==> r.processor.engineRunning
    ensures e.tank.fillLevel <= 0.0 ==> r == e
    ensures r.tank == e.tank
    ensures r.processor.actualSpeed == e.processor.actualSpeed
    ensures r.processor.accelerating == e.processor.accelerating
    ensures Valid(e) ==> Valid(r)
  {
    if e.tank.fillLevel > 0.0 then
      e.(isRunning := true, processor := Processors.EngineStart(e.processor))
    else
      e
  }

  /** Always succeeds and also switches the processor's flag off. */
  function Stop(e: Engine): (r: Engine)
    ensures !r.isRunning && !r.processor.engineRunning
    ensures r.tank == e.tank
    ensures r.processor.actualSpeed == e.processor.actualSpeed
    ensures r.processor.accelerating == e.processor.accelerating
    ensures FuelTanks.Valid(e.tank) ==> Valid(r)
  {
    e.(isRunning := false, processor := Processors.EngineStop(e.processor))
  }

  lemma StopIdempotent(e: Engine)
    ensures Stop(Stop(e)) == Stop(e)
  {
  }

  /** Draws fuel only while running, and stalls the engine when the tank
      runs dry. */
  function Consume(e: Engine, litres: real): (r: Engine)
    ensures !e.isRunning ==> r == e
    ensures e.isRunning ==> r.tank == FuelTanks.Consume(e.tank, litres)
    ensures e.isRunning ==> (r.isRunning <==> r.tank.fillLevel != 0.0)
    ensures r.tank.fillLevel == 0.0 && e.isRunning ==> !r.processor.engineRunning
    ensures r.processor.actualSpeed == e.processor.actualSpeed
    ensures r.processor.accelerating == e.processor.accelerating
    ensures Valid(e) && litres >= 0.0 ==> Valid(r) && r.tank.fillLevel <= e.tank.fillLevel
  {
    if e.isRunning then
      var drawn := e.(tank := FuelTanks.Consume(e.tank, litres));
      if drawn.tank.fillLevel == 0.0 then Stop(drawn) else drawn
    else
      e
  }
}

=== FILE: fuel_tank.dfy ===
/** The fuel tank (class `FuelTank` in Car.cs): a fill level that every
    operation clamps into [0, MAXIMUM_FUEL_LEVEL]. */
module FuelTanks {

  import opened Globals

  datatype FuelTank = FuelTank(fillLevel: real)

  predicate Valid(t: FuelTank) {
    0.0 <= t.fillLevel <= MAXIMUM_FUEL_LEVEL
  }

  /** The constructor clamps any requested level into the tank. */
  function New(fuelLevel: real): (t: FuelTank)
    ensures Valid(t)
    ensures 0.0 <= fuelLevel <= MAXIMUM_FUEL_LEVEL ==> t.fillLevel == fuelLevel
    ensures fuelLevel < 0.0 ==> t.fillLevel == 0.0
    ensures fuelLevel > MAXIMUM_FUEL_LEVEL ==> t.fillLevel == MAXIMUM_FUEL_LEVEL
  {
    FuelTank(MinReal(MaxReal(0.0, fuelLevel), MAXIMUM_FUEL_LEVEL))
  }

  /** On reserve: drawing the reserve amount would empty the tank. */
  predicate IsOnReserve(t: FuelTank)
    ensures IsOnReserve(t) ==> Consume(t, RESERVE_FUEL_LEVEL).fillLevel == 0.0
    ensures !IsOnReserve(t) ==> Consume(t, RESERVE_FUEL_LEVEL).fillLevel == t.fillLevel - RESERVE_FUEL_LEVEL
    ensures t.fillLevel == RESERVE_FUEL_LEVEL ==> !IsOnReserve(t)
  {
    t.fillLevel < RESERVE_FUEL_LEVEL
  }

  /** Complete: the tank is full, so no refuel adds anything. */
  predicate IsComplete(t: FuelTank)
    ensures IsComplete(t) ==> Valid(t) && !IsOnReserve(t)
    ensures IsComplete(t) ==> forall x :: x >= 0.0 ==> Refuel(t, x) == t
  {
    t.fillLevel == MAXIMUM_FUEL_LEVEL
  }

  /** Draws `litres`; the level floors at 0 instead of going negative. */
  function Consume(t: FuelTank, litres: real): (r: FuelTank)
    ensures r.fillLevel >= 0.0
    ensures r.fillLevel == 0.0 <==> litres >= t.fillLevel
    ensures r.fillLevel > 0.0 ==> r.fillLevel == t.fillLevel - litres
    ensures Valid(t) && litres >= 0.0 ==> Valid(r) && r.fillLevel <= t.fillLevel
  {
    FuelTank(MaxReal(0.0, t.fillLevel - litres))
  }

  /** Adds `litres`; the level caps at MAXIMUM_FUEL_LEVEL. */
  function Refuel(t: FuelTank, litres: real): (r: FuelTank)
    ensures r.fillLevel <= MAXIMUM_FUEL_LEVEL
    ensures r.fillLevel < MAXIMUM_FUEL_LEVEL ==> r.fillLevel == t.fillLevel + litres
    ensures r.fillLevel == MAXIMUM_FUEL_LEVEL <==> t.fillLevel + litres >= MAXIMUM_FUEL_LEVEL
    ensures Valid(t) && litres >= 0.0 ==> Valid(r) && r.fillLevel >= t.fillLevel
  {
    FuelTank(MinReal(t.fillLevel + litres, MAXIMUM_FUEL_LEVEL))
  }

  /** A level below the reserve mark is never a full tank. */
  lemma ReserveIsNotComplete(t: FuelTank)
    ensures IsOnReserve(t) ==> !IsComplete(t)
    ensures IsComplete(Refuel(t, MAXIMUM_FUEL_LEVEL - t.fillLevel))
  {
  }

  /** Refuelling `x` litres that fit in the tank and then drawing the same
      `x` litres gives back the original tank. */
  lemma RefuelThenConsume(t: FuelTank, x: real)
    requires Valid(t) && 0.0 <= x && t.fillLevel + x <= MAXIMUM_FUEL_LEVEL
    ensures Consume(Refuel(t, x), x) == t
  {
  }

  /** Two draws of `a` and `b` litres equal one draw of `a + b`. */
  lemma ConsumeTwice(t: FuelTank, a: real, b: real)
    requires 0.0 <= a && 0.0 <= b
    ensures Consume(Consume(t, a), b) == Consume(t, a + b)
  {
  }
}

=== FILE: globals.dfy ===
/** A value that may be absent. The on-board computer uses `None` where the
    simulator stores the floating-point NaN sentinel ("no driving time yet"). */
module Optional {

  datatype Option<+T> = None | Some(value: T)
}

/** The simulator's process-wide constants and the speed-bracket
    consumption table (Globals/Globals.cs). Fuel quantities are litres,
    consumption rates are litres per simulated second, speeds are km/h. */
module Globals {

  const DEFAULT_FUEL_LEVEL: real := 20.0
  const IDLE_FUEL_CONSUMPTION: real := 0.0003
  const MAXIMUM_FUEL_LEVEL: real := 60.0
  const RESERVE_FUEL_LEVEL: real := 5.0
  const DEFAULT_ACCELERATION: int := 10
  const MIN_ACCELERATION: int := 5
  const MAX_ACCELERATION: int := 20
  const MIN_SPEED: int := 0
  const MAX_SPEED: int := 250
  const FREEWHEEL_DECELERATION: int := 1
  const MAX_BRAKE: int := 10

  /** Litres per kilometre assumed for every sample of a fresh range window. */
  const DEFAULT_CONSUMPTION: real := 4.8 / 100.0

  /** The highest rate the consumption table hands out. */
  const MAX_TABLE_CONSUMPTION: real := 0.0030

  function Min(a: int, b: int): int { if a <= b then a else b }
  function Max(a: int, b: int): int { if a >= b then a else b }
  function MinReal(a: real, b: real): real { if a <= b then a else b }
  function MaxReal(a: real, b: real): real { if a >= b then a else b }

  /** `Math.Clamp(value, low, high)` for `low <= high`. */
  function Clamp(value: int, low: int, high: int): (r: int)
    requires low <= high
    ensures low <= r <= high
    ensures low <= value <= high ==> r == value
    ensures value < low ==> r == low
    ensures value > high ==> r == high
  {
    if value < low then low else if value > high then high else value
  }

  /** Fuel drawn in one second of accelerating at `speed`. */
  function GetConsumption(speed: int): (litres: real)
    ensures 0.0 <= litres <= MAX_TABLE_CONSUMPTION
    ensures litres > 0.0 <==> MIN_SPEED < speed <= MAX_SPEED
  {
    if 1 <= speed <= 60 then 0.0020
    else if 61 <= speed <= 100 then 0.0014
    else if 101 <= speed <= 140 then 0.0020
    else if 141 <= speed <= 200 then 0.0025
    else if 201 <= speed <= 250 then 0.0030
    else 0.0
  }

  /** One row of the consumption table: speeds `low..high` (inclusive) cost `litres`. */
  datatype Bracket = Bracket(low: int, high: int, litres: real)

  /** The consumption table written as data, independently of `GetConsumption`. */
  const BRACKETS: seq<Bracket> := [
    Bracket(1, 60, 0.0020),
    Bracket(61, 100, 0.0014),
    Bracket(101, 140, 0.0020),
    Bracket(141, 200, 0.0025),
    Bracket(201, 250, 0.0030)
  ]

  predicate InBracket(b: Bracket, speed: int) {
    b.low <= speed <= b.high
  }

  /** The brackets are pairwise disjoint and together cover exactly the
      speeds 1..MAX_SPEED. */
  lemma BracketsPartitionSpeeds(speed: int)
    ensures forall i, j ::
              (0 <= i < |BRACKETS| && 0 <= j < |BRACKETS| &&
               InBracket(BRACKETS[i], speed) && InBracket(BRACKETS[j], speed)) ==> i == j
    ensures (MIN_SPEED < speed <= MAX_SPEED) <==>
              exists i :: 0 <= i < |BRACKETS| && InBracket(BRACKETS[i], speed)
  {
    if MIN_SPEED < speed <= MAX_SPEED {
      var i := if speed <= 60 then 0 else if speed <= 100 then 1
               else if speed <= 140 then 2 else if speed <= 200 then 3 else 4;
      assert InBracket(BRACKETS[i], speed);
    }
  }

  /** `GetConsumption` returns the rate of the one bracket holding the speed,
      and 0 when no bracket holds it. */
  lemma GetConsumptionFollowsTable(speed: int)
    ensures forall i :: 0 <= i < |BRACKETS| && InBracket(BRACKETS[i], speed) ==>
              GetConsumption(speed) == BRACKETS[i].litres
    ensures (forall i :: 0 <= i < |BRACKETS| ==> !InBracket(BRACKETS[i], speed)) ==>
              GetConsumption(speed) == 0.0
  {
    if MIN_SPEED < speed <= MAX_SPEED {
      BracketsPartitionSpeeds(speed);
    }
  }

  /** The table is deliberately not monotonic: cruising at 61..100 km/h
      costs less than driving at 1..60 km/h. */
  lemma ConsumptionNotMonotonic()
    ensures forall slow, fast :: 1 <= slow <= 60 && 61 <= fast <= 100 ==>
              GetConsumption(fast) < GetConsumption(slow)
  {
  }

  /** The constants are ordered so that the defaults lie inside their
      clamping ranges and the reserve mark lies inside the tank. */
  lemma ConstantsConsistent()
    ensures MIN_ACCELERATION <= DEFAULT_ACCELERATION <= MAX_ACCELERATION
    ensures Clamp(DEFAULT_ACCELERATION, MIN_ACCELERATION, MAX_ACCELERATION) == DEFAULT_ACCELERATION
    ensures MIN_SPEED < MAX_SPEED
    ensures 0.0 < RESERVE_FUEL_LEVEL < MAXIMUM_FUEL_LEVEL
    ensures 0.0 <= DEFAULT_FUEL_LEVEL <= MAXIMUM_FUEL_LEVEL
    ensures 0.0 < IDLE_FUEL_CONSUMPTION <= MAX_TABLE_CONSUMPTION
  {
  }
}

=== FILE: on_board_computer.dfy ===
/** The on-board computer (class `OnBoardComputer` in Car.cs). Each tick
    samples the driving processor and the fuel tank and accumulates two
    parallel scopes of counters, "trip" and "total", that are reset
    independently. A window of the last 100 per-kilometre samples feeds the
    range estimate. */
module Computers {

  import opened Globals
  import opened Optional
  import FuelTanks
  import Processors

  const WINDOW_SIZE: nat := 100

  /** The window a new computer starts with: every sample is DEFAULT_CONSUMPTION. */
  function DefaultWindow(): (w: seq<real>)
    ensures |w| == WINDOW_SIZE
    ensures forall i :: 0 <= i < |w| ==> w[i] == DEFAULT_CONSUMPTION
  {
    seq(WINDOW_SIZE, _ => DEFAULT_CONSUMPTION)
  }

  /** The rolling window holds exactly WINDOW_SIZE samples at all times. */
  type Window = w: seq<real> | |w| == WINDOW_SIZE witness DefaultWindow()

  /** The queue-filling loop of the constructor. */
  method SetupDefaultConsumption() returns (q: Window)
    ensures forall i :: 0 <= i < |q| ==> q[i] == DEFAULT_CONSUMPTION
    ensures q == DefaultWindow()
  {
    var queue: seq<real> := [];
    var i := 0;
    while i < WINDOW_SIZE
      invariant 0 <= i <= WINDOW_SIZE
      invariant |queue| == i
      invariant forall k :: 0 <= k < i ==> queue[k] == DEFAULT_CONSUMPTION
    {
      queue := queue + [DEFAULT_CONSUMPTION];
      i := i + 1;
    }
    q := queue;
  }

  function Sum(s: seq<real>): real
  {
    if |s| == 0 then 0.0 else s[0] + Sum(s[1..])
  }

  lemma {:induction false} SumAppend(s: seq<real>, x: real)
    ensures Sum(s + [x]) == Sum(s) + x
  {
    if |s| == 0 {
      assert s + [x] == [x];
    } else {
      assert (s + [x])[1..] == s[1..] + [x];
      SumAppend(s[1..], x);
    }
  }

  lemma {:induction false} SumNonNegative(s: seq<real>)
    requires forall i :: 0 <= i < |s| ==> s[i] >= 0.0
    ensures Sum(s) >= 0.0
  {
    if |s| > 0 {
      SumNonNegative(s[1..]);
    }
  }

  lemma {:induction false} SumConstant(n: nat, x: real)
    ensures Sum(seq(n, _ => x)) == (n as real) * x
  {
    if n > 0 {
      assert seq(n, _ => x)[1..] == seq(n - 1, _ => x);
      SumConstant(n - 1, x);
    }
  }

  /** Fuel per kilometre at the processor's current rate and speed:
      litres per second times seconds per kilometre. */
  function LitresPerKm(p: Processors.DrivingProcessor): (r: real)
    requires p.actualSpeed > 0
    ensures r >= 0.0
    ensures r * (p.actualSpeed as real) == 3600.0 * Processors.ActualConsumption(p)
  {
    var hours := (p.actualSpeed as real) / 3600.0;
    Processors.ActualConsumption(p) * (1.0 / hours)
  }

  /** A tick with the car moving drops the oldest sample and appends the
      current one; a tick standing still leaves the window alone. */
  function ShiftWindow(w: Window, p: Processors.DrivingProcessor): (r: Window)
    ensures p.actualSpeed <= 0 ==> r == w
    ensures p.actualSpeed > 0 ==> r[..WINDOW_SIZE - 1] == w[1..] && r[WINDOW_SIZE - 1] == LitresPerKm(p)
    ensures p.actualSpeed > 0 ==> Sum(r) == Sum(w) - w[0] + LitresPerKm(p)
  {
    if p.actualSpeed > 0 then
      SumAppend(w[1..], LitresPerKm(p));
      w[1..] + [LitresPerKm(p)]
    else
      w
  }

  /** Kilometres the fuel left lasts at the window's average consumption;
      absent when that average is 0 (the division has no value). */
  function EstimatedRange(w: Window, fillLevel: real): (r: Option<real>)
    ensures r.None? <==> Sum(w) == 0.0
    ensures r.Some? ==> r.value * Sum(w) == fillLevel * (WINDOW_SIZE as real)
  {
    var average := Sum(w) / (WINDOW_SIZE as real);
    if average == 0.0 then None else Some(fillLevel / average)
  }

  /** A window of non-negative samples and a non-negative fill level never
      give a negative range. */
  lemma EstimatedRangeNonNegative(w: Window, fillLevel: real)
    requires forall i :: 0 <= i < |w| ==> w[i] >= 0.0
    requires fillLevel >= 0.0
    ensures EstimatedRange(w, fillLevel).Some? ==> EstimatedRange(w, fillLevel).value >= 0.0
  {
    SumNonNegative(w);
  }

  /** With the default window the estimate is the fill level over
      DEFAULT_CONSUMPTION. */
  lemma DefaultWindowRange(fillLevel: real)
    ensures EstimatedRange(DefaultWindow(), fillLevel) == Some(fillLevel / DEFAULT_CONSUMPTION)
  {
    SumConstant(WINDOW_SIZE, DEFAULT_CONSUMPTION);
  }

  /** Metres covered in seconds whose speeds in km/h add up to `speedSum`. */
  function Metres(speedSum: int): real {
    (1000.0 * (speedSum as real)) / 3600.0
  }

  /** Integer seconds needed for 100 km at `speed` (truncating division);
      0 when standing. */
  function SecondsRequiredToDrive100Km(speed: int): (secs: int)
    ensures speed <= 0 ==> secs == 0
    ensures speed > 0 ==> 0 <= secs && secs * speed <= 360000 < (secs + 1) * speed
  {
    if speed > 0 then 360000 / speed else 0
  }

  /** `sum / realTime`, or 0 before any second has elapsed. */
  function AverageConsumptionByTime(realTime: int, sum: real): (r: real)
    ensures realTime == 0 ==> r == 0.0
    ensures realTime != 0 ==> r * (realTime as real) == sum
  {
    if realTime == 0 then 0.0 else sum / (realTime as real)
  }

  /** The counters of one scope. `speedSum` is the sum of the speeds of the
      driving seconds; `averageConsumptionByTime` is stored, not derived. */
  datatype Scope = Scope(
    realTime: int,
    drivingTime: int,
    speedSum: int,
    drivenDistanceMetres: real,
    consumptionByTimeSum: real,
    consumptionByDistanceSum: real,
    averageConsumptionByTime: real)

  const EmptyScope: Scope := Scope(0, 0, 0, 0.0, 0.0, 0.0, 0.0)

  /** Driving time never exceeds real time, every driving second adds at
      least 1 km/h to the speed sum, the distance is the distance of the
      summed speeds, and the stored average agrees with the sums. */
  predicate ScopeValid(s: Scope) {
    && 0 <= s.drivingTime <= s.realTime
    && s.drivingTime <= s.speedSum
    && (s.drivingTime == 0 ==> s.speedSum == 0)
    && s.drivenDistanceMetres == Metres(s.speedSum)
    && s.consumptionByTimeSum >= 0.0
    && s.consumptionByDistanceSum >= 0.0
    && s.averageConsumptionByTime == AverageConsumptionByTime(s.realTime, s.consumptionByTimeSum)
  }

  /** One tick's contribution to a scope. */
  function Accumulate(s: Scope, speed: int, byTime: real, byDistance: Option<real>): (r: Scope)
    ensures r.realTime == s.realTime + 1
    ensures r.drivingTime == s.drivingTime + (if speed > 0 then 1 else 0)
    ensures r.speedSum == s.speedSum + (if speed > 0 then speed else 0)
    ensures r.drivenDistanceMetres == s.drivenDistanceMetres + (if speed > 0 then Metres(speed) else 0.0)
    ensures r.consumptionByTimeSum == s.consumptionByTimeSum + byTime
    ensures byDistance.None? ==> r.consumptionByDistanceSum == s.consumptionByDistanceSum
    ensures byDistance.Some? ==> r.consumptionByDistanceSum == s.consumptionByDistanceSum + byDistance.value
    ensures ScopeValid(s) && byTime >= 0.0 && (byDistance.Some? ==> byDistance.value >= 0.0) ==> ScopeValid(r)
  {
    var driving := speed > 0;
    var realTime := s.realTime + 1;
    var byTimeSum := s.consumptionByTimeSum + byTime;
    Scope(
      realTime,
      if driving then s.drivingTime + 1 else s.drivingTime,
      if driving then s.speedSum + speed else s.speedSum,
      if driving then s.drivenDistanceMetres + Metres(speed) else s.drivenDistanceMetres,
      byTimeSum,
      if byDistance.Some? then s.consumptionByDistanceSum + byDistance.value else s.consumptionByDistanceSum,
      AverageConsumptionByTime(realTime, byTimeSum))
  }

  /** `(distance in km) / (driving time in hours)`, or 0 before any driving second. */
  function AverageSpeed(s: Scope): (r: real)
    ensures s.drivingTime == 0 ==> r == 0.0
  {
    if s.drivingTime == 0 then 0.0
    else (s.drivenDistanceMetres / 1000.0) / ((s.drivingTime as real) / 3600.0)
  }

  /** The average speed of a scope is the mean of the speeds of its driving seconds. */
  lemma AverageSpeedIsMeanSpeed(s: Scope)
    requires ScopeValid(s) && s.drivingTime > 0
    ensures AverageSpeed(s) == (s.speedSum as real) / (s.drivingTime as real)
  {
    var km := s.drivenDistanceMetres / 1000.0;
    var hours := (s.drivingTime as real) / 3600.0;
    assert km == (s.speedSum as real) / 3600.0;
    assert km / hours == (s.speedSum as real) / (s.drivingTime as real);
  }

  /** Per-driving-second mean of the per-100-km consumption, or 0 before any
      driving second. */
  function AverageConsumptionByDistance(s: Scope): (r: real)
    ensures s.drivingTime == 0 ==> r == 0.0
    ensures s.drivingTime != 0 ==> r * (s.drivingTime as real) == s.consumptionByDistanceSum
  {
    if s.drivingTime == 0 then 0.0 else s.consumptionByDistanceSum / (s.drivingTime as real)
  }

  /** The driven distance in whole metres, truncated as a C# `(int)` cast does. */
  function DrivenDistance(s: Scope): (metres: int)
    ensures s.drivenDistanceMetres >= 0.0 ==>
              0 <= metres && (metres as real) <= s.drivenDistanceMetres < (metres as real) + 1.0
    ensures s.drivenDistanceMetres < 0.0 ==>
              metres <= 0 && (metres as real) - 1.0 < s.drivenDistanceMetres <= (metres as real)
  {
    var d := s.drivenDistanceMetres;
    if d >= 0.0 then d.Floor else -((-d).Floor)
  }

  datatype Computer = Computer(
    trip: Scope,
    total: Scope,
    actualConsumptionByTime: real,
    actualConsumptionByDistance: Option<real>,
    window: Window,
    estimatedRange: Option<real>)

  predicate Valid(c: Computer) {
    && ScopeValid(c.trip)
    && ScopeValid(c.total)
    && c.actualConsumptionByTime >= 0.0
    && (c.actualConsumptionByDistance.None? <==> c.trip.drivingTime == 0)
    && (c.actualConsumptionByDistance.Some? ==> c.actualConsumptionByDistance.value >= 0.0)
    && (forall i :: 0 <= i < |c.window| ==> c.window[i] >= 0.0)
  }

  /** A fresh computer: both scopes empty, no per-distance figure yet, the
      default window, and a stored range of 0. */
  function Initial(): (c: Computer)
    ensures Valid(c)
    ensures c.trip == EmptyScope && c.total == EmptyScope
    ensures c.actualConsumptionByDistance.None?
    ensures forall i :: 0 <= i < |c.window| ==> c.window[i] == DEFAULT_CONSUMPTION
    ensures c.window == DefaultWindow() && c.actualConsumptionByTime == 0.0 && c.estimatedRange == Some(0.0)
  {
    Computer(EmptyScope, EmptyScope, 0.0, None, DefaultWindow(), Some(0.0))
  }

  /** The per-distance figure of one second: none before the trip's first
      driving second, otherwise the litres of this second scaled to the
      seconds that 100 km take at this speed. */
  function PerDistance(speed: int, byTime: real, tripDrivingTime: int): (r: Option<real>)
    ensures r.None? <==> tripDrivingTime == 0
    ensures r.Some? ==> r.value == (SecondsRequiredToDrive100Km(speed) as real) * byTime
    ensures r.Some? && byTime >= 0.0 ==> r.value >= 0.0
    ensures r.Some? && byTime == 0.0 ==> r.value == 0.0
  {
    if tripDrivingTime == 0 then None
    else Some((SecondsRequiredToDrive100Km(speed) as real) * byTime)
  }

  /** One simulated second, sampling processor `p` and tank `t`. */
  function ElapseSecond(c: Computer, p: Processors.DrivingProcessor, t: FuelTanks.FuelTank): (r: Computer)
    ensures r.trip.realTime == c.trip.realTime + 1 && r.total.realTime == c.total.realTime + 1
    ensures p.actualSpeed > 0 ==>
              r.trip.drivingTime == c.trip.drivingTime + 1 && r.total.drivingTime == c.total.drivingTime + 1
    ensures p.actualSpeed <= 0 ==>
              r.trip.drivingTime == c.trip.drivingTime && r.total.drivingTime == c.total.drivingTime
    ensures r.trip.speedSum == c.trip.speedSum + (if p.actualSpeed > 0 then p.actualSpeed else 0)
    ensures r.total.speedSum == c.total.speedSum + (if p.actualSpeed > 0 then p.actualSpeed else 0)
    ensures p.actualSpeed > 0 ==>
              r.trip.drivenDistanceMetres == c.trip.drivenDistanceMetres + Metres(p.actualSpeed)
              && r.total.drivenDistanceMetres == c.total.drivenDistanceMetres + Metres(p.actualSpeed)
    ensures p.actualSpeed <= 0 ==>
              r.trip.drivenDistanceMetres == c.trip.drivenDistanceMetres
              && r.total.drivenDistanceMetres == c.total.drivenDistanceMetres
    ensures r.actualConsumptionByTime == Processors.ActualConsumption(p)
    ensures r.trip.consumptionByTimeSum == c.trip.consumptionByTimeSum + r.actualConsumptionByTime
    ensures r.total.consumptionByTimeSum == c.total.consumptionByTimeSum + r.actualConsumptionByTime
    ensures r.actualConsumptionByDistance.None? <==> r.trip.drivingTime == 0
    ensures r.actualConsumptionByDistance.Some? ==>
              r.actualConsumptionByDistance.value
              == (SecondsRequiredToDrive100Km(p.actualSpeed) as real) * r.actualConsumptionByTime
    ensures r.actualConsumptionByDistance.Some? && r.actualConsumptionByTime == 0.0 ==>
              r.actualConsumptionByDistance.value == 0.0
    ensures r.actualConsumptionByDistance.None? ==>
              r.trip.consumptionByDistanceSum == c.trip.consumptionByDistanceSum
              && r.total.consumptionByDistanceSum == c.total.consumptionByDistanceSum
    ensures r.actualConsumptionByDistance.Some? ==>
              r.trip.consumptionByDistanceSum == c.trip.consumptionByDistanceSum + r.actualConsumptionByDistance.value
              && r.total.consumptionByDistanceSum == c.total.consumptionByDistanceSum + r.actualConsumptionByDistance.value
    ensures c.trip == c.total ==> r.trip == r.total
    ensures r.window == ShiftWindow(c.window, p)
    ensures r.estimatedRange == EstimatedRange(r.window, t.fillLevel)
    ensures Valid(c) ==> Valid(r)
  {
    var speed := p.actualSpeed;
    var byTime := Processors.ActualConsumption(p);
    var tripDrivingTime := if speed > 0 then c.trip.drivingTime + 1 else c.trip.drivingTime;
    var byDistance := PerDistance(speed, byTime, tripDrivingTime);
    var window := ShiftWindow(c.window, p);
    var trip := Accumulate(c.trip, speed, byTime, byDistance);
    var total := Accumulate(c.total, speed, byTime, byDistance);
    Computer(
      trip,
      total,
      byTime,
      byDistance,
      window,
      EstimatedRange(window, t.fillLevel))
  }

  /** Zeroes the trip scope and forgets the per-distance figure; the total
      scope, the window and the other instantaneous figures stay. */
  function TripReset(c: Computer): (r: Computer)
    ensures r.trip == EmptyScope && r.actualConsumptionByDistance.None?
    ensures r.total == c.total && r.window == c.window
    ensures r.actualConsumptionByTime == c.actualConsumptionByTime && r.estimatedRange == c.estimatedRange
    ensures Valid(c) ==> Valid(r)
  {
    c.(trip := EmptyScope, actualConsumptionByDistance := None)
  }

  /** Zeroes the total scope; everything else stays. */
  function TotalReset(c: Computer): (r: Computer)
    ensures r.total == EmptyScope
    ensures r.trip == c.trip && r.window == c.window
    ensures r.actualConsumptionByTime == c.actualConsumptionByTime
    ensures r.actualConsumptionByDistance == c.actualConsumptionByDistance
    ensures r.estimatedRange == c.estimatedRange
    ensures Valid(c) ==> Valid(r)
  {
    c.(total := EmptyScope)
  }

  /** The two resets touch disjoint state: they commute, and each is idempotent. */
  lemma ResetsIndependent(c: Computer)
    ensures TripReset(TotalReset(c)) == TotalReset(TripReset(c))
    ensures TripReset(TripReset(c)) == TripReset(c)
    ensures TotalReset(TotalReset(c)) == TotalReset(c)
  {
  }
}

=== FILE: scenarios.dfy ===
/** Operation sequences of the repository's NUnit tests
    (ConstructingACar.Test/ConstructingACarTests.cs), replayed on the model.
    Only the figures that do not depend on floating-point rounding are
    stated. */
module Scenarios {

  import opened Globals
  import opened Optional
  import Processors
  import Computers
  import opened Cars

  /** A started default car: running, standing, one second on the clocks. */
  lemma StartedDefault()
    ensures Valid(EngineStart(Default())) && Running(EngineStart(Default()))
    ensures Speed(EngineStart(Default())) == 0
    ensures FillLevel(EngineStart(Default())) == DEFAULT_FUEL_LEVEL
    ensures EngineStart(Default()).maxAcceleration == DEFAULT_ACCELERATION
    ensures EngineStart(Default()).computer.trip == EngineStart(Default()).computer.total
    ensures EngineStart(Default()).computer.trip.realTime == 1
    ensures EngineStart(Default()).computer.trip.drivingTime == 0
    ensures EngineStart(Default()).computer.trip.consumptionByTimeSum == 0.0
    ensures EngineStart(Default()).computer.actualConsumptionByTime == 0.0
    ensures EngineStart(Default()).computer.actualConsumptionByDistance.None?
  {
  }

  /** No per-distance consumption is recorded before the first driving second. */
  lemma StartedDefaultDistance()
    ensures EngineStart(Default()).computer.trip.consumptionByDistanceSum == 0.0
  {
  }

  lemma RunSingle(c: Car, op: Op)
    ensures Run(c, [op]) == Step(c, op)
  {
    assert [op][1..] == [];
  }

  lemma RunTwo(c: Car, a: Op, b: Op)
    ensures Run(c, [a, b]) == Step(Step(c, a), b)
  {
    RunFirst(c, [a, b]);
    assert [a, b][1..] == [b];
    RunSingle(Step(c, a), b);
  }

  lemma ThreeCoasts(c: Car)
    ensures Run(c, [Coast, Coast, Coast]) == FreeWheel(FreeWheel(FreeWheel(c)))
  {
    var coasts := [Coast, Coast, Coast];
    RunFirst(c, coasts);
    assert coasts[1..] == [Coast, Coast];
    RunFirst(FreeWheel(c), [Coast, Coast]);
    assert [Coast, Coast][1..] == [Coast];
    RunSingle(FreeWheel(FreeWheel(c)), Coast);
  }

  /** Starting a default car and accelerating `n` times toward `target`. */
  lemma StartAndRamp(target: int, n: nat)
    requires target >= 0 && n <= 100
    ensures var r := Run(Default(), [StartEngine] + Repeat(AccelerateTo(target), n));
            && Valid(r) && Running(r) && r.maxAcceleration == DEFAULT_ACCELERATION
            && Speed(r) == Min(Min(target, n * DEFAULT_ACCELERATION), MAX_SPEED)
            && FillLevel(r) >= DEFAULT_FUEL_LEVEL - (n as real) * MAX_TABLE_CONSUMPTION
  {
    var c0 := Default();
    var ramp := Repeat(AccelerateTo(target), n);
    RunAppend(c0, [StartEngine], ramp);
    RunSingle(c0, StartEngine);
    var c1 := EngineStart(c0);
    StartedDefault();
    RampFromStandstill(c1, target, n);
  }

  /** The ramp of `StartAndRamp` from the started car onwards. */
  lemma RampFromStandstill(c: Car, target: int, n: nat)
    requires Valid(c) && Running(c) && Speed(c) == 0 && target >= 0 && n <= 100
    requires c.maxAcceleration == DEFAULT_ACCELERATION && FillLevel(c) == DEFAULT_FUEL_LEVEL
    ensures var r := Run(c, Repeat(AccelerateTo(target), n));
            && Valid(r) && Running(r) && r.maxAcceleration == DEFAULT_ACCELERATION
            && Speed(r) == Min(Min(target, n * DEFAULT_ACCELERATION), MAX_SPEED)
            && FillLevel(r) >= DEFAULT_FUEL_LEVEL - (n as real) * MAX_TABLE_CONSUMPTION
  {
    assert (n as real) * MAX_TABLE_CONSUMPTION <= 0.3;
    AccelerateRamp(c, target, n);
  }

  /** A running default-acceleration car at 100 km/h with fuel to spare. */
  predicate AtHundred(c: Car) {
    Valid(c) && Running(c) && c.maxAcceleration == DEFAULT_ACCELERATION && Speed(c) == 100
    && FillLevel(c) > 10.0 * MAX_TABLE_CONSUMPTION
  }

  /** Ten accelerations toward 100 km/h after starting a default car reach 100 km/h. */
  lemma TenToHundred()
    ensures AtHundred(Run(Default(), [StartEngine] + Repeat(AccelerateTo(100), 10)))
  {
    StartAndRamp(100, 10);
  }

  lemma CoastFromHundred(c: Car)
    requires AtHundred(c)
    ensures Speed(FreeWheel(FreeWheel(FreeWheel(c)))) == 97
  {
  }

  /** Ten `Accelerate(100)` calls reach 100 km/h; three `FreeWheel` calls
      then leave 97 km/h (TestFreeWheelSpeed). */
  lemma FreeWheelSpeed()
    ensures Speed(Run(Default(), [StartEngine] + Repeat(AccelerateTo(100), 10))) == 100
    ensures Speed(Run(Default(), [StartEngine] + Repeat(AccelerateTo(100), 10) + [Coast, Coast, Coast])) == 97
  {
    var prefix := [StartEngine] + Repeat(AccelerateTo(100), 10);
    TenToHundred();
    var c := Run(Default(), prefix);
    RunAppend(Default(), prefix, [Coast, Coast, Coast]);
    ThreeCoasts(c);
    CoastFromHundred(c);
  }

  lemma RampFromHundred(c: Car)
    requires AtHundred(c)
    ensures var r := Run(c, Repeat(AccelerateTo(160), 4));
            && Valid(r) && Running(r) && Speed(r) == 140
            && r.maxAcceleration == DEFAULT_ACCELERATION && FillLevel(r) > MAX_TABLE_CONSUMPTION
  {
    AccelerateRamp(c, 160, 4);
  }

  lemma AccelerateFrom140(c: Car)
    requires Valid(c) && Running(c) && Speed(c) == 140 && c.maxAcceleration == DEFAULT_ACCELERATION
    requires FillLevel(c) > MAX_TABLE_CONSUMPTION
    ensures Speed(Run(c, [AccelerateTo(145)])) == 145
  {
    RunSingle(c, AccelerateTo(145));
    AccelerateStep(c, 145);
  }

  /** From 100 km/h four `Accelerate(160)` calls give 140 km/h and one
      `Accelerate(145)` gives 145 km/h (TestAccelerateBy10). */
  lemma AccelerateBy10()
    ensures Speed(Run(Default(), [StartEngine] + Repeat(AccelerateTo(100), 10) + Repeat(AccelerateTo(160), 4))) == 140
    ensures Speed(Run(Default(), [StartEngine] + Repeat(AccelerateTo(100), 10) + Repeat(AccelerateTo(160), 4) + [AccelerateTo(145)])) == 145
  {
    var prefix := [StartEngine] + Repeat(AccelerateTo(100), 10);
    var more := Repeat(AccelerateTo(160), 4);
    TenToHundred();
    var c := Run(Default(), prefix);
    RunAppend(Default(), prefix, more);
    RampFromHundred(c);
    RunAppend(Default(), prefix + more, [AccelerateTo(145)]);
    AccelerateFrom140(Run(c, more));
  }

  lemma BrakeFromHundred(c: Car)
    requires AtHundred(c)
    ensures Speed(Run(c, [Brake(20)])) == 90
    ensures Speed(Run(c, [Brake(20), Brake(10)])) == 80
  {
    RunSingle(c, Brake(20));
    RunTwo(c, Brake(20), Brake(10));
    BrakeStep(c, 20);
    BrakeStep(BrakeBy(c, 20), 10);
  }

  /** From 100 km/h `BrakeBy(20)` only brakes by MAX_BRAKE, giving 90 km/h;
      `BrakeBy(10)` then gives 80 km/h (TestBraking). */
  lemma Braking()
    ensures Speed(Run(Default(), [StartEngine] + Repeat(AccelerateTo(100), 10) + [Brake(20)])) == 90
    ensures Speed(Run(Default(), [StartEngine] + Repeat(AccelerateTo(100), 10) + [Brake(20), Brake(10)])) == 80
  {
    var prefix := [StartEngine] + Repeat(AccelerateTo(100), 10);
    TenToHundred();
    RunAppend(Default(), prefix, [Brake(20)]);
    RunAppend(Default(), prefix, [Brake(20), Brake(10)]);
    BrakeFromHundred(Run(Default(), prefix));
  }

  /** Braking a car whose engine was never started changes nothing, so no
      second elapses (TestRealAndDrivingTimeBeforeStartingBrakeBy10). */
  lemma BrakeBeforeStarting()
    ensures BrakeBy(Default(), 10) == Default()
    ensures TripRealTime(BrakeBy(Default(), 10)) == 0
  {
  }

  /** One idle second after starting draws the idle rate, and with no
      driving second yet there is no per-distance figure
      (TestActualConsumptionRunningIdle). */
  lemma ActualConsumptionRunningIdle()
    ensures RunningIdle(EngineStart(Default())).computer.actualConsumptionByTime == IDLE_FUEL_CONSUMPTION
    ensures RunningIdle(EngineStart(Default())).computer.actualConsumptionByDistance.None?
  {
    StartedDefault();
  }

  /** Driving, braking to standstill and stopping leaves no per-distance
      figure, and starting again does not bring one back
      (TestActualConsumptionEngineStopAfterDriving, ...StartAfterDriving). */
  lemma ActualConsumptionAfterStop()
    ensures EngineStop(BrakeBy(Accelerate(EngineStart(Default()), 10), 10)).computer.actualConsumptionByDistance.None?
    ensures EngineStart(EngineStop(BrakeBy(Accelerate(EngineStart(Default()), 10), 10))).computer.actualConsumptionByDistance.None?
  {
    StartedDefault();
    var c1 := EngineStart(Default());
    AccelerateStep(c1, 10);
    StopAfterBrakingToStandstill(Accelerate(c1, 10));
  }

  /** Braking from 10 km/h to standstill, stopping, and starting again. */
  lemma StopAfterBrakingToStandstill(c: Car)
    requires Valid(c) && Running(c) && Speed(c) == 10
    ensures EngineStop(BrakeBy(c, 10)).computer.actualConsumptionByDistance.None?
    ensures EngineStart(EngineStop(BrakeBy(c, 10))).computer.actualConsumptionByDistance.None?
  {
    var c3 := BrakeBy(c, 10);
    assert Speed(c3) == 0;
    var c4 := EngineStop(c3);
    assert c4.computer.trip.drivingTime == 0 && Speed(c4) == 0;
  }

  /** What one second of the scenarios below adds to both scopes. */
  predicate Ticked(c: Car, r: Car) {
    && Valid(r) && Running(r)
    && r.maxAcceleration == c.maxAcceleration
    && FillLevel(r) >= FillLevel(c) - MAX_TABLE_CONSUMPTION
    && TripRealTime(r) == TripRealTime(c) + 1
    && TotalRealTime(r) == TotalRealTime(c) + 1
    && r.computer.trip.drivingTime == c.computer.trip.drivingTime + (if Speed(r) > 0 then 1 else 0)
    && r.computer.total.drivingTime == c.computer.total.drivingTime + (if Speed(r) > 0 then 1 else 0)
    && r.computer.trip.consumptionByTimeSum
       == c.computer.trip.consumptionByTimeSum + Processors.ActualConsumption(r.engine.processor)
    && r.computer.total.consumptionByTimeSum
       == c.computer.total.consumptionByTimeSum + Processors.ActualConsumption(r.engine.processor)
  }

  lemma AccelerateStep(c: Car, target: int)
    requires Valid(c) && Running(c) && target >= Speed(c) && FillLevel(c) > MAX_TABLE_CONSUMPTION
    ensures Ticked(c, Accelerate(c, target))
    ensures Speed(Accelerate(c, target)) == Min(Min(target, Speed(c) + c.maxAcceleration), MAX_SPEED)
    ensures Accelerate(c, target).engine.processor.accelerating
  {
  }

  lemma BrakeStep(c: Car, amount: int)
    requires Valid(c) && Running(c) && amount >= 0
    ensures Ticked(c, BrakeBy(c, amount))
    ensures Speed(BrakeBy(c, amount)) == Max(Speed(c) - Min(amount, MAX_BRAKE), MIN_SPEED)
    ensures !BrakeBy(c, amount).engine.processor.accelerating
  {
  }

  lemma IdleStep(c: Car)
    requires Valid(c) && Running(c) && FillLevel(c) > MAX_TABLE_CONSUMPTION
    ensures Ticked(c, RunningIdle(c))
    ensures Speed(RunningIdle(c)) == Speed(c)
  {
  }

  /** A running default-acceleration car at `speed` whose two scopes both
      show `realTime` and `drivingTime` seconds, with at least `fuel` litres. */
  predicate Clocks(c: Car, speed: int, realTime: int, drivingTime: int, fuel: real) {
    && Valid(c) && Running(c)
    && c.maxAcceleration == DEFAULT_ACCELERATION
    && Speed(c) == speed
    && TripRealTime(c) == realTime && TotalRealTime(c) == realTime
    && c.computer.trip.drivingTime == drivingTime && c.computer.total.drivingTime == drivingTime
    && FillLevel(c) >= fuel
  }

  lemma AccelerateClocks(c: Car, target: int, speed: int, realTime: int, drivingTime: int, fuel: real)
    requires Clocks(c, speed, realTime, drivingTime, fuel)
    requires target >= speed && fuel > MAX_TABLE_CONSUMPTION
    ensures var s := Min(Min(target, speed + DEFAULT_ACCELERATION), MAX_SPEED);
            Clocks(Accelerate(c, target), s, realTime + 1, drivingTime + (if s > 0 then 1 else 0),
                   fuel - MAX_TABLE_CONSUMPTION)
  {
    AccelerateStep(c, target);
  }

  lemma BrakeClocks(c: Car, amount: int, speed: int, realTime: int, drivingTime: int, fuel: real)
    requires Clocks(c, speed, realTime, drivingTime, fuel) && amount >= 0
    ensures var s := Max(speed - Min(amount, MAX_BRAKE), MIN_SPEED);
            Clocks(BrakeBy(c, amount), s, realTime + 1, drivingTime + (if s > 0 then 1 else 0), fuel)
  {
    BrakeStep(c, amount);
  }

  lemma IdleClocks(c: Car, realTime: int, drivingTime: int, fuel: real)
    requires Clocks(c, 0, realTime, drivingTime, fuel) && fuel > MAX_TABLE_CONSUMPTION
    ensures Clocks(RunningIdle(c), 0, realTime + 1, drivingTime, fuel - MAX_TABLE_CONSUMPTION)
  {
    IdleStep(c);
  }

  /** Two idle seconds, five accelerations toward 30 km/h, two brakes and
      one more acceleration: 11 seconds of real time, 8 of them driving
      (TestRealAndDrivingTimeAfterDriving). */
  lemma RealAndDrivingTimeAfterDriving()
    ensures var c := Accelerate(BrakeBy(BrakeBy(
                       Accelerate(Accelerate(Accelerate(Accelerate(Accelerate(
                         RunningIdle(RunningIdle(EngineStart(Default()))),
                         30), 30), 30), 30), 30), 10), 10), 30);
            && TripRealTime(c) == 11 && c.computer.trip.drivingTime == 8
            && TotalRealTime(c) == 11 && c.computer.total.drivingTime == 8
  {
    var m := MAX_TABLE_CONSUMPTION;
    var c3 := RunningIdle(RunningIdle(EngineStart(Default())));
    IdleTwiceClocks();
    FiveTowardThirtyClocks(c3, 20.0 - 2.0 * m);
    BrakeTwiceThenAccelerateClocks(Accelerate(Accelerate(Accelerate(Accelerate(Accelerate(c3, 30), 30), 30), 30), 30),
                                   20.0 - 7.0 * m);
  }

  /** Starting a default car and idling for two seconds. */
  lemma IdleTwiceClocks()
    ensures Clocks(RunningIdle(RunningIdle(EngineStart(Default()))), 0, 3, 0, 20.0 - 2.0 * MAX_TABLE_CONSUMPTION)
  {
    StartedDefault();
    var c1 := EngineStart(Default());
    assert Clocks(c1, 0, 1, 0, 20.0);
    IdleClocks(c1, 1, 0, 20.0);
    IdleClocks(RunningIdle(c1), 2, 0, 20.0 - MAX_TABLE_CONSUMPTION);
  }

  /** Five accelerations toward 30 km/h from standstill: five driving seconds. */
  lemma FiveTowardThirtyClocks(c: Car, fuel: real)
    requires Clocks(c, 0, 3, 0, fuel) && fuel > 5.0 * MAX_TABLE_CONSUMPTION
    ensures Clocks(Accelerate(Accelerate(Accelerate(Accelerate(Accelerate(c, 30), 30), 30), 30), 30),
                   30, 8, 5, fuel - 5.0 * MAX_TABLE_CONSUMPTION)
  {
    var m := MAX_TABLE_CONSUMPTION;
    AccelerateClocks(c, 30, 0, 3, 0, fuel);
    var c4 := Accelerate(c, 30);
    AccelerateClocks(c4, 30, 10, 4, 1, fuel - m);
    var c5 := Accelerate(c4, 30);
    AccelerateClocks(c5, 30, 20, 5, 2, fuel - 2.0 * m);
    var c6 := Accelerate(c5, 30);
    AccelerateClocks(c6, 30, 30, 6, 3, fuel - 3.0 * m);
    var c7 := Accelerate(c6, 30);
    AccelerateClocks(c7, 30, 30, 7, 4, fuel - 4.0 * m);
  }

  /** Two brakes by 10 km/h from 30 km/h and one acceleration toward 30
      km/h: three more driving seconds. */
  lemma BrakeTwiceThenAccelerateClocks(c: Car, fuel: real)
    requires Clocks(c, 30, 8, 5, fuel) && fuel > MAX_TABLE_CONSUMPTION
    ensures Clocks(Accelerate(BrakeBy(BrakeBy(c, 10), 10), 30), 20, 11, 8, fuel - MAX_TABLE_CONSUMPTION)
  {
    BrakeClocks(c, 10, 30, 8, 5, fuel);
    var c9 := BrakeBy(c, 10);
    BrakeClocks(c9, 10, 20, 9, 6, fuel);
    var c10 := BrakeBy(c9, 10);
    AccelerateClocks(c10, 30, 10, 10, 7, fuel);
  }

  /** The consumption sums of both scopes of a running default-acceleration
      car at `speed`, with at least `fuel` litres. */
  predicate Sums(c: Car, speed: int, tripTime: int, tripSum: real, totalTime: int, totalSum: real, fuel: real) {
    && Valid(c) && Running(c)
    && c.maxAcceleration == DEFAULT_ACCELERATION
    && Speed(c) == speed
    && TripRealTime(c) == tripTime && c.computer.trip.consumptionByTimeSum == tripSum
    && TotalRealTime(c) == totalTime && c.computer.total.consumptionByTimeSum == totalSum
    && FillLevel(c) >= fuel
  }

  /** An acceleration toward 30 km/h from at most 30 km/h ends in the
      1..60 km/h bracket and so draws 0.0020 l. */
  lemma AccelerateSums(c: Car, speed: int, tripTime: int, tripSum: real, totalTime: int, totalSum: real, fuel: real)
    requires Sums(c, speed, tripTime, tripSum, totalTime, totalSum, fuel)
    requires 0 <= speed <= 30 && fuel > MAX_TABLE_CONSUMPTION
    ensures Sums(Accelerate(c, 30), Min(30, speed + DEFAULT_ACCELERATION),
                 tripTime + 1, tripSum + 0.0020, totalTime + 1, totalSum + 0.0020, fuel - MAX_TABLE_CONSUMPTION)
  {
    AccelerateStep(c, 30);
    var r := Accelerate(c, 30);
    assert r.engine.processor.engineRunning;
    assert Processors.ActualConsumption(r.engine.processor) == GetConsumption(Speed(r)) == 0.0020;
  }

  /** Three accelerations toward 30 km/h draw 0.0020 l each over four
      seconds, so the average is 0.0015 l/s; a trip reset clears only the
      trip average. Three more accelerations give the trip an average of
      0.0020 l/s; a total reset clears only the total average
      (TestAverageConsumptionsAfterAcceleratingAndReset). */
  lemma AverageConsumptionsAfterAcceleratingAndReset()
    ensures var c := TripReset(Accelerate(Accelerate(Accelerate(EngineStart(Default()), 30), 30), 30));
            && c.computer.trip.averageConsumptionByTime == 0.0
            && c.computer.total.averageConsumptionByTime == 0.0015
    ensures var c := TotalReset(Accelerate(Accelerate(Accelerate(
                       TripReset(Accelerate(Accelerate(Accelerate(EngineStart(Default()), 30), 30), 30)),
                       30), 30), 30));
            && c.computer.trip.averageConsumptionByTime == 0.0020
            && c.computer.total.averageConsumptionByTime == 0.0
  {
    StartThenThreeTowardThirty();
    ResetsAfterThree(Accelerate(Accelerate(Accelerate(EngineStart(Default()), 30), 30), 30), 20.0 - 3.0 * MAX_TABLE_CONSUMPTION);
  }

  /** The two resets of `AverageConsumptionsAfterAcceleratingAndReset`, from
      the car after the first three accelerations. */
  lemma ResetsAfterThree(c: Car, fuel: real)
    requires Sums(c, 30, 4, 0.0060, 4, 0.0060, fuel) && fuel > 6.0 * MAX_TABLE_CONSUMPTION
    ensures TripReset(c).computer.trip.averageConsumptionByTime == 0.0
    ensures TripReset(c).computer.total.averageConsumptionByTime == 0.0015
    ensures TotalReset(Accelerate(Accelerate(Accelerate(TripReset(c), 30), 30), 30)).computer.trip.averageConsumptionByTime == 0.0020
    ensures TotalReset(Accelerate(Accelerate(Accelerate(TripReset(c), 30), 30), 30)).computer.total.averageConsumptionByTime == 0.0
  {
    var t := TripReset(c);
    assert Sums(t, 30, 0, 0.0, 4, 0.0060, fuel);
    SumsAverages(t, 30, 0, 0.0, 4, 0.0060, fuel, 0.0, 0.0015);
    ThreeTowardThirty(t, 30, 0, 0.0, 4, 0.0060, fuel);
    TotalResetAfterThree(Accelerate(Accelerate(Accelerate(t, 30), 30), 30), fuel - 3.0 * MAX_TABLE_CONSUMPTION);
  }

  lemma TotalResetAfterThree(c: Car, fuel: real)
    requires Sums(c, 30, 3, 0.0060, 7, 0.0120, fuel)
    ensures TotalReset(c).computer.trip.averageConsumptionByTime == 0.0020
    ensures TotalReset(c).computer.total.averageConsumptionByTime == 0.0
  {
    var u := TotalReset(c);
    assert Sums(u, 30, 3, 0.0060, 0, 0.0, fuel);
    SumsAverages(u, 30, 3, 0.0060, 0, 0.0, fuel, 0.0020, 0.0);
  }

  /** A started default car after three accelerations toward 30 km/h. */
  lemma StartThenThreeTowardThirty()
    ensures Sums(Accelerate(Accelerate(Accelerate(EngineStart(Default()), 30), 30), 30), 30,
                 4, 0.0060, 4, 0.0060, 20.0 - 3.0 * MAX_TABLE_CONSUMPTION)
  {
    StartedDefault();
    var c1 := EngineStart(Default());
    assert Sums(c1, 0, 1, 0.0, 1, 0.0, 20.0);
    ThreeTowardThirty(c1, 0, 1, 0.0, 1, 0.0, 20.0);
  }

  /** The stored averages of both scopes, from their sums and real times. */
  lemma SumsAverages(c: Car, speed: int, tripTime: int, tripSum: real, totalTime: int, totalSum: real, fuel: real,
                     tripAverage: real, totalAverage: real)
    requires Sums(c, speed, tripTime, tripSum, totalTime, totalSum, fuel)
    requires (tripTime == 0 && tripAverage == 0.0) || (tripTime > 0 && tripAverage * (tripTime as real) == tripSum)
    requires (totalTime == 0 && totalAverage == 0.0) || (totalTime > 0 && totalAverage * (totalTime as real) == totalSum)
    ensures c.computer.trip.averageConsumptionByTime == tripAverage
    ensures c.computer.total.averageConsumptionByTime == totalAverage
  {
    if tripTime > 0 {
      assert c.computer.trip.averageConsumptionByTime * (tripTime as real) == tripSum == tripAverage * (tripTime as real);
      Cancel(c.computer.trip.averageConsumptionByTime, tripAverage, tripTime as real);
    }
    if totalTime > 0 {
      assert c.computer.total.averageConsumptionByTime * (totalTime as real) == totalSum == totalAverage * (totalTime as real);
      Cancel(c.computer.total.averageConsumptionByTime, totalAverage, totalTime as real);
    }
  }

  lemma Cancel(x: real, y: real, t: real)
    requires t > 0.0 && x * t == y * t
    ensures x == y
  {
  }

  /** Three accelerations toward 30 km/h, from standstill or from 30 km/h,
      add three seconds and 0.0060 l to both scopes. */
  lemma ThreeTowardThirty(c: Car, speed: int, tripTime: int, tripSum: real, totalTime: int, totalSum: real, fuel: real)
    requires Sums(c, speed, tripTime, tripSum, totalTime, totalSum, fuel)
    requires (speed == 0 || speed == 30) && fuel > 3.0 * MAX_TABLE_CONSUMPTION
    ensures Sums(Accelerate(Accelerate(Accelerate(c, 30), 30), 30), 30,
                 tripTime + 3, tripSum + 0.0060, totalTime + 3, totalSum + 0.0060, fuel - 3.0 * MAX_TABLE_CONSUMPTION)
  {
    var m := MAX_TABLE_CONSUMPTION;
    AccelerateSums(c, speed, tripTime, tripSum, totalTime, totalSum, fuel);
    var c1 := Accelerate(c, 30);
    var s1 := Min(30, speed + DEFAULT_ACCELERATION);
    AccelerateSums(c1, s1, tripTime + 1, tripSum + 0.0020, totalTime + 1, totalSum + 0.0020, fuel - m);
    var c2 := Accelerate(c1, 30);
    var s2 := Min(30, s1 + DEFAULT_ACCELERATION);
    AccelerateSums(c2, s2, tripTime + 2, tripSum + 0.0040, totalTime + 2, totalSum + 0.0040, fuel - 2.0 * m);
  }

  /** A running default-acceleration car at `speed` whose trip and total
      scopes are identical, with the given clocks and consumption sums and at
      least `fuel` litres. */
  predicate Consumed(c: Car, speed: int, realTime: int, drivingTime: int, timeSum: real, distanceSum: real, fuel: real) {
    && Valid(c) && Running(c)
    && c.maxAcceleration == DEFAULT_ACCELERATION
    && Speed(c) == speed
    && c.computer.trip == c.computer.total
    && TripRealTime(c) == realTime && c.computer.trip.drivingTime == drivingTime
    && c.computer.trip.consumptionByTimeSum == timeSum
    && c.computer.trip.consumptionByDistanceSum == distanceSum
    && FillLevel(c) >= fuel
  }

  /** An acceleration toward 30 km/h from at most 20 km/h gains 10 km/h and
      draws 0.0020 l; the per-distance figure is that rate scaled to the
      seconds 100 km take at the new speed. */
  lemma AccelerateConsumed(c: Car, speed: int, realTime: int, drivingTime: int, timeSum: real, distanceSum: real, fuel: real)
    requires Consumed(c, speed, realTime, drivingTime, timeSum, distanceSum, fuel)
    requires 0 <= speed <= 20 && fuel > MAX_TABLE_CONSUMPTION
    ensures Consumed(Accelerate(c, 30), speed + DEFAULT_ACCELERATION, realTime + 1, drivingTime + 1, timeSum + 0.0020,
                     distanceSum + (Computers.SecondsRequiredToDrive100Km(speed + DEFAULT_ACCELERATION) as real) * 0.0020,
                     fuel - MAX_TABLE_CONSUMPTION)
  {
    AccelerateStep(c, 30);
    var r := Accelerate(c, 30);
    assert r.engine.processor.engineRunning;
    assert Processors.ActualConsumption(r.engine.processor) == GetConsumption(Speed(r)) == 0.0020;
    assert r.computer.actualConsumptionByDistance.Some?;
  }

  /** A brake by 10 km/h draws nothing while rolling and the idle rate once
      standing; either way the per-distance figure is 0. */
  lemma BrakeConsumed(c: Car, speed: int, realTime: int, drivingTime: int, timeSum: real, distanceSum: real, fuel: real)
    requires Consumed(c, speed, realTime, drivingTime, timeSum, distanceSum, fuel)
    requires 10 <= speed <= MAX_SPEED
    ensures Consumed(BrakeBy(c, 10), speed - 10, realTime + 1, drivingTime + (if speed > 10 then 1 else 0),
                     timeSum + (if speed == 10 then IDLE_FUEL_CONSUMPTION else 0.0), distanceSum, fuel)
  {
    BrakeStep(c, 10);
    var r := BrakeBy(c, 10);
    assert r.engine.processor.engineRunning;
    assert Speed(r) == speed - 10;
    assert Processors.ActualConsumption(r.engine.processor) == (if speed == 10 then IDLE_FUEL_CONSUMPTION else 0.0);
    assert r.computer.actualConsumptionByDistance.Some? ==> r.computer.actualConsumptionByDistance.value == 0.0;
  }

  /** A started default car after three accelerations toward 30 km/h:
      0.0020 l in each of the three driving seconds, and per-distance
      figures of 72, 36 and 24 l per 100 km at 10, 20 and 30 km/h. */
  lemma StartThenThreeConsumed()
    ensures Consumed(Accelerate(Accelerate(Accelerate(EngineStart(Default()), 30), 30), 30),
                     30, 4, 3, 0.0060, 132.0, 20.0 - 3.0 * MAX_TABLE_CONSUMPTION)
  {
    StartedDefault();
    StartedDefaultDistance();
    var m := MAX_TABLE_CONSUMPTION;
    var c1 := EngineStart(Default());
    assert Consumed(c1, 0, 1, 0, 0.0, 0.0, 20.0);
    AccelerateConsumed(c1, 0, 1, 0, 0.0, 0.0, 20.0);
    var c2 := Accelerate(c1, 30);
    AccelerateConsumed(c2, 10, 2, 1, 0.0020, 72.0, 20.0 - m);
    var c3 := Accelerate(c2, 30);
    AccelerateConsumed(c3, 20, 3, 2, 0.0040, 108.0, 20.0 - 2.0 * m);
  }

  /** Three brakes by 10 km/h from 30 km/h: two more driving seconds, the
      idle rate in the last second, no per-distance consumption. */
  lemma ThreeBrakesConsumed(c: Car, fuel: real)
    requires Consumed(c, 30, 4, 3, 0.0060, 132.0, fuel)
    ensures Consumed(BrakeBy(BrakeBy(BrakeBy(c, 10), 10), 10), 0, 7, 5, 0.0063, 132.0, fuel)
  {
    BrakeConsumed(c, 30, 4, 3, 0.0060, 132.0, fuel);
    var c1 := BrakeBy(c, 10);
    BrakeConsumed(c1, 20, 5, 4, 0.0060, 132.0, fuel);
    var c2 := BrakeBy(c1, 10);
    BrakeConsumed(c2, 10, 6, 5, 0.0060, 132.0, fuel);
  }

  /** The stored per-time averages and the per-distance averages of both
      scopes, from their sums and clocks. */
  lemma ConsumedAverages(c: Car, speed: int, realTime: int, drivingTime: int, timeSum: real, distanceSum: real, fuel: real,
                         timeAverage: real, distanceAverage: real)
    requires Consumed(c, speed, realTime, drivingTime, timeSum, distanceSum, fuel)
    requires realTime > 0 && timeAverage * (realTime as real) == timeSum
    requires drivingTime > 0 && distanceAverage * (drivingTime as real) == distanceSum
    ensures c.computer.trip.averageConsumptionByTime == timeAverage
    ensures c.computer.total.averageConsumptionByTime == timeAverage
    ensures Computers.AverageConsumptionByDistance(c.computer.trip) == distanceAverage
    ensures Computers.AverageConsumptionByDistance(c.computer.total) == distanceAverage
  {
    assert c.computer.trip.averageConsumptionByTime * (realTime as real) == timeSum == timeAverage * (realTime as real);
    Cancel(c.computer.trip.averageConsumptionByTime, timeAverage, realTime as real);
    assert Computers.AverageConsumptionByDistance(c.computer.trip) * (drivingTime as real) == distanceSum
           == distanceAverage * (drivingTime as real);
    Cancel(Computers.AverageConsumptionByDistance(c.computer.trip), distanceAverage, drivingTime as real);
  }

  /** The averages of a car in the state `StartThenThreeConsumed` reaches:
      0.0060 l over four seconds is 0.0015 l/s, and (72 + 36 + 24) / 3 = 44
      l per 100 km. */
  lemma AccelerationAverages(c: Car, fuel: real)
    requires Consumed(c, 30, 4, 3, 0.0060, 132.0, fuel)
    ensures c.computer.trip.averageConsumptionByTime == 0.0015
    ensures c.computer.total.averageConsumptionByTime == 0.0015
    ensures Computers.AverageConsumptionByDistance(c.computer.trip) == 44.0
    ensures Computers.AverageConsumptionByDistance(c.computer.total) == 44.0
  {
    ConsumedAverages(c, 30, 4, 3, 0.0060, 132.0, fuel, 0.0015, 44.0);
  }

  /** ... and after three brakes by 10 km/h: 0.0063 l over seven seconds is
      0.0009 l/s, and 132 l per 100 km over five driving seconds is 26.4. */
  lemma BrakingAverages(c: Car, fuel: real)
    requires Consumed(c, 30, 4, 3, 0.0060, 132.0, fuel)
    ensures BrakeBy(BrakeBy(BrakeBy(c, 10), 10), 10).computer.trip.averageConsumptionByTime == 0.0009
    ensures BrakeBy(BrakeBy(BrakeBy(c, 10), 10), 10).computer.total.averageConsumptionByTime == 0.0009
    ensures Computers.AverageConsumptionByDistance(BrakeBy(BrakeBy(BrakeBy(c, 10), 10), 10).computer.trip) == 26.4
    ensures Computers.AverageConsumptionByDistance(BrakeBy(BrakeBy(BrakeBy(c, 10), 10), 10).computer.total) == 26.4
  {
    ThreeBrakesConsumed(c, fuel);
    ConsumedAverages(BrakeBy(BrakeBy(BrakeBy(c, 10), 10), 10), 0, 7, 5, 0.0063, 132.0, fuel, 0.0009, 26.4);
  }

  /** Start and three accelerations toward 30 km/h give both scopes 0.0015
      l/s and 44 l per 100 km (TestAverageConsumptionsAfterAccelerating). */
  lemma AverageConsumptionsAfterAccelerating()
    ensures var c := Accelerate(Accelerate(Accelerate(EngineStart(Default()), 30), 30), 30);
            && c.computer.trip.averageConsumptionByTime == 0.0015
            && c.computer.total.averageConsumptionByTime == 0.0015
            && Computers.AverageConsumptionByDistance(c.computer.trip) == 44.0
            && Computers.AverageConsumptionByDistance(c.computer.total) == 44.0
  {
    StartThenThreeConsumed();
    AccelerationAverages(Accelerate(Accelerate(Accelerate(EngineStart(Default()), 30), 30), 30),
                         20.0 - 3.0 * MAX_TABLE_CONSUMPTION);
  }

  /** Three brakes by 10 km/h after that give both scopes 0.0009 l/s and
      26.4 l per 100 km (TestAverageConsumptionsAfterBraking). */
  lemma AverageConsumptionsAfterBraking()
    ensures var c := BrakeBy(BrakeBy(BrakeBy(
                       Accelerate(Accelerate(Accelerate(EngineStart(Default()), 30), 30), 30), 10), 10), 10);
            && c.computer.trip.averageConsumptionByTime == 0.0009
            && c.computer.total.averageConsumptionByTime == 0.0009
            && Computers.AverageConsumptionByDistance(c.computer.trip) == 26.4
            && Computers.AverageConsumptionByDistance(c.computer.total) == 26.4
  {
    StartThenThreeConsumed();
    BrakingAverages(Accelerate(Accelerate(Accelerate(EngineStart(Default()), 30), 30), 30),
                    20.0 - 3.0 * MAX_TABLE_CONSUMPTION);
  }

  /** An acceleration whose draw empties the tank stalls the engine, and then
      no second elapses: a car built with 0.002 l and started draws exactly
      that on its first acceleration toward 10 km/h. */
  lemma AccelerateStalls()
    ensures var c := EngineStart(New(0.002, 10));
            var r := Accelerate(c, 10);
            && FillLevel(r) == 0.0 && !Running(r)
            && TripRealTime(r) == TripRealTime(c) && r.computer == c.computer
  {
    var c := EngineStart(New(0.002, 10));
    assert Valid(c) && Running(c) && Speed(c) == 0 && c.maxAcceleration == 10;
    var r := Accelerate(c, 10);
    assert Speed(r) == 10 && DrawnAt(10) == 0.002;
  }

  /** A running car with a maximum acceleration of 20 at `speed` holding
      exactly `fill` litres. */
  predicate Fueled(c: Car, speed: int, fill: real) {
    Valid(c) && Running(c) && c.maxAcceleration == 20 && Speed(c) == speed && FillLevel(c) == fill
  }

  /** Accelerating toward 30 km/h from at most 30 km/h ends in the 1..60 km/h
      bracket, so exactly 0.0020 l is drawn. */
  lemma TowardThirtyDraws(c: Car, speed: int, fill: real)
    requires Fueled(c, speed, fill) && 0 <= speed <= 30 && fill > MAX_TABLE_CONSUMPTION
    ensures Fueled(Accelerate(c, 30), Min(30, speed + 20), fill - 0.0020)
  {
    var r := Accelerate(c, 30);
    assert DrawnAt(Speed(r)) == 0.0020;
  }

  /** `n` accelerations toward 30 km/h draw exactly 0.0020 l each. */
  lemma {:induction false} TowardThirtyRun(c: Car, speed: int, fill: real, n: nat)
    requires Fueled(c, speed, fill) && 0 <= speed <= 30
    requires fill > (n as real) * 0.0020 + MAX_TABLE_CONSUMPTION
    ensures Fueled(Run(c, Repeat(AccelerateTo(30), n)), Min(30, speed + 20 * n), fill - (n as real) * 0.0020)
    decreases n
  {
    if n > 0 {
      RunRepeat(c, AccelerateTo(30), n);
      TowardThirtyDraws(c, speed, fill);
      TowardThirtyRun(Accelerate(c, 30), Min(30, speed + 20), fill - 0.0020, n - 1);
    }
  }

  /** A car built with 1 l and a maximum acceleration of 20, started and
      accelerated ten times toward 30 km/h, holds exactly 0.98 l
      (TestConsumptionSpeedUpTo30). */
  lemma ConsumptionSpeedUpTo30()
    ensures FillLevel(Run(New(1.0, 20), [StartEngine] + Repeat(AccelerateTo(30), 10))) == 0.98
  {
    var c0 := New(1.0, 20);
    RunAppend(c0, [StartEngine], Repeat(AccelerateTo(30), 10));
    RunSingle(c0, StartEngine);
    var c1 := EngineStart(c0);
    assert Fueled(c1, 0, 1.0);
    TowardThirtyRun(c1, 0, 1.0, 10);
  }

  /** After five accelerations toward 100 km/h with a maximum acceleration
      of 20, one freewheeling second draws nothing and reports 0 l per
      100 km (TestActualConsumptionFreeWheel). */
  lemma ActualConsumptionFreeWheel()
    ensures var c := FreeWheel(Run(New(40.0, 20), [StartEngine] + Repeat(AccelerateTo(100), 5)));
            && c.computer.actualConsumptionByTime == 0.0
            && c.computer.actualConsumptionByDistance == Some(0.0)
  {
    var c0 := New(40.0, 20);
    var ramp := Repeat(AccelerateTo(100), 5);
    RunAppend(c0, [StartEngine], ramp);
    RunSingle(c0, StartEngine);
    var c1 := EngineStart(c0);
    assert Valid(c1) && Running(c1) && Speed(c1) == 0 && FillLevel(c1) == 40.0;
    AccelerateRamp(c1, 100, 5);
    FreeWheelFromHundred(Run(c1, ramp));
  }

  /** One freewheeling second of a running car at 100 km/h with fuel to spare. */
  lemma FreeWheelFromHundred(c: Car)
    requires Valid(c) && Running(c) && Speed(c) == 100 && FillLevel(c) > MAX_TABLE_CONSUMPTION
    ensures FreeWheel(c).computer.actualConsumptionByTime == 0.0
    ensures FreeWheel(c).computer.actualConsumptionByDistance == Some(0.0)
  {
    var r := FreeWheel(c);
    assert Speed(r) == 99 && Running(r) && !r.engine.processor.accelerating;
    assert r.computer.trip.drivingTime > 0;
  }

  /** Replaying `ops` and then `op` is one more step after replaying `ops`. */
  lemma RunLast(c: Car, ops: seq<Op>, op: Op)
    ensures Run(c, ops + [op]) == Step(Run(c, ops), op)
  {
    RunAppend(c, ops, [op]);
    RunSingle(Run(c, ops), op);
  }

  /** Five accelerations toward 100 km/h with a maximum acceleration of 20
      reach 100 km/h, drawing the 61..100 km/h rate; 360000 / 100 = 3600
      seconds per 100 km at that rate give 5.04 l per 100 km
      (TestActualConsumptionAccelerateTo100). */
  lemma ActualConsumptionAccelerateTo100()
    ensures var c := Run(New(40.0, 20), [StartEngine] + Repeat(AccelerateTo(100), 5));
            && c.computer.actualConsumptionByTime == 0.0014
            && c.computer.actualConsumptionByDistance == Some(5.04)
  {
    var c0 := New(40.0, 20);
    var prefix := [StartEngine] + Repeat(AccelerateTo(100), 4);
    assert prefix + [AccelerateTo(100)] == [StartEngine] + Repeat(AccelerateTo(100), 5);
    RunLast(c0, prefix, AccelerateTo(100));
    var c2 := FourFromStandstill();
    AccelerateFromEighty(c2);
  }

  /** Accelerating from 80 to 100 km/h with a maximum acceleration of 20. */
  lemma AccelerateFromEighty(c: Car)
    requires Valid(c) && Running(c) && Speed(c) == 80 && c.maxAcceleration == 20
    requires FillLevel(c) > MAX_TABLE_CONSUMPTION
    ensures Accelerate(c, 100).computer.actualConsumptionByTime == 0.0014
    ensures Accelerate(c, 100).computer.actualConsumptionByDistance == Some(5.04)
  {
    AccelerateStep(c, 100);
    var r := Accelerate(c, 100);
    assert Speed(r) == 100 && r.engine.processor.accelerating && r.engine.processor.engineRunning;
    assert Computers.SecondsRequiredToDrive100Km(100) == 3600;
  }

  /** A car built with 40 l and a maximum acceleration of 20, started and
      accelerated four times toward 100 km/h, runs at 80 km/h. */
  lemma FourFromStandstill() returns (c2: Car)
    ensures c2 == Run(New(40.0, 20), [StartEngine] + Repeat(AccelerateTo(100), 4))
    ensures Valid(c2) && Running(c2) && Speed(c2) == 80 && c2.maxAcceleration == 20
    ensures FillLevel(c2) > MAX_TABLE_CONSUMPTION
  {
    var c0 := New(40.0, 20);
    var ramp := Repeat(AccelerateTo(100), 4);
    RunAppend(c0, [StartEngine], ramp);
    RunSingle(c0, StartEngine);
    var c1 := EngineStart(c0);
    assert Valid(c1) && Running(c1) && Speed(c1) == 0 && FillLevel(c1) == 40.0;
    FourTowardHundred(c1);
    c2 := Run(c1, ramp);
  }

  /** The ramp of `FourFromStandstill` from the started car onwards. */
  lemma FourTowardHundred(c: Car)
    requires Valid(c) && Running(c) && Speed(c) == 0 && c.maxAcceleration == 20 && FillLevel(c) == 40.0
    ensures var r := Run(c, Repeat(AccelerateTo(100), 4));
            Valid(r) && Running(r) && Speed(r) == 80 && r.maxAcceleration == 20 && FillLevel(r) > MAX_TABLE_CONSUMPTION
  {
    AccelerateRamp(c, 100, 4);
  }

  /** The speed sums and driving times of both scopes of a running
      default-acceleration car at `speed`, with at least `fuel` litres. */
  predicate Driven(c: Car, speed: int, tripTime: int, tripSpeeds: int, totalTime: int, totalSpeeds: int, fuel: real) {
    && Valid(c) && Running(c)
    && c.maxAcceleration == DEFAULT_ACCELERATION
    && Speed(c) == speed
    && c.computer.trip.drivingTime == tripTime && c.computer.trip.speedSum == tripSpeeds
    && c.computer.total.drivingTime == totalTime && c.computer.total.speedSum == totalSpeeds
    && FillLevel(c) >= fuel
  }

  lemma AccelerateDriven(c: Car, target: int, speed: int, tripTime: int, tripSpeeds: int,
                         totalTime: int, totalSpeeds: int, fuel: real)
    requires Driven(c, speed, tripTime, tripSpeeds, totalTime, totalSpeeds, fuel)
    requires 0 <= speed <= target && fuel > MAX_TABLE_CONSUMPTION
    ensures var s := Min(Min(target, speed + DEFAULT_ACCELERATION), MAX_SPEED);
            var d := if s > 0 then 1 else 0;
            Driven(Accelerate(c, target), s, tripTime + d, tripSpeeds + s, totalTime + d, totalSpeeds + s,
                   fuel - MAX_TABLE_CONSUMPTION)
  {
    AccelerateStep(c, target);
  }

  lemma BrakeDriven(c: Car, amount: int, speed: int, tripTime: int, tripSpeeds: int,
                    totalTime: int, totalSpeeds: int, fuel: real)
    requires Driven(c, speed, tripTime, tripSpeeds, totalTime, totalSpeeds, fuel) && amount >= 0
    ensures var s := Max(speed - Min(amount, MAX_BRAKE), MIN_SPEED);
            var d := if s > 0 then 1 else 0;
            Driven(BrakeBy(c, amount), s, tripTime + d, tripSpeeds + s, totalTime + d, totalSpeeds + s, fuel)
  {
    BrakeStep(c, amount);
  }

  lemma IdleDriven(c: Car, tripTime: int, tripSpeeds: int, totalTime: int, totalSpeeds: int, fuel: real)
    requires Driven(c, 0, tripTime, tripSpeeds, totalTime, totalSpeeds, fuel) && fuel > MAX_TABLE_CONSUMPTION
    ensures Driven(RunningIdle(c), 0, tripTime, tripSpeeds, totalTime, totalSpeeds, fuel - MAX_TABLE_CONSUMPTION)
  {
    IdleStep(c);
  }

  /** Start, two idle seconds and three accelerations toward 30 km/h. */
  lemma IdleThenThirty()
    ensures Driven(Accelerate(Accelerate(Accelerate(RunningIdle(RunningIdle(EngineStart(Default()))), 30), 30), 30),
                   30, 3, 60, 3, 60, 20.0 - 5.0 * MAX_TABLE_CONSUMPTION)
  {
    StartedDefault();
    var m := MAX_TABLE_CONSUMPTION;
    var c1 := EngineStart(Default());
    assert Driven(c1, 0, 0, 0, 0, 0, 20.0);
    IdleDriven(c1, 0, 0, 0, 0, 20.0);
    var c2 := RunningIdle(c1);
    IdleDriven(c2, 0, 0, 0, 0, 20.0 - m);
    var c3 := RunningIdle(c2);
    AccelerateDriven(c3, 30, 0, 0, 0, 0, 0, 20.0 - 2.0 * m);
    var c4 := Accelerate(c3, 30);
    AccelerateDriven(c4, 30, 10, 1, 10, 1, 10, 20.0 - 3.0 * m);
    var c5 := Accelerate(c4, 30);
    AccelerateDriven(c5, 30, 20, 2, 30, 2, 30, 20.0 - 4.0 * m);
  }

  /** The average speeds of a car in terms of its driving times and speed sums. */
  lemma MeanSpeeds(c: Car, speed: int, tripTime: int, tripSpeeds: int, totalTime: int, totalSpeeds: int, fuel: real,
                   tripMean: real, totalMean: real)
    requires Driven(c, speed, tripTime, tripSpeeds, totalTime, totalSpeeds, fuel)
    requires tripTime > 0 && totalTime > 0
    requires tripMean * (tripTime as real) == tripSpeeds as real
    requires totalMean * (totalTime as real) == totalSpeeds as real
    ensures Computers.AverageSpeed(c.computer.trip) == tripMean
    ensures Computers.AverageSpeed(c.computer.total) == totalMean
  {
    Computers.AverageSpeedIsMeanSpeed(c.computer.trip);
    Computers.AverageSpeedIsMeanSpeed(c.computer.total);
  }

  /** Three brakes by 10 km/h from 30 km/h: two more driving seconds at
      20 and 10 km/h. */
  lemma BrakeFromThirty(c: Car, tripTime: int, tripSpeeds: int, totalTime: int, totalSpeeds: int, fuel: real)
    requires Driven(c, 30, tripTime, tripSpeeds, totalTime, totalSpeeds, fuel)
    ensures Driven(BrakeBy(BrakeBy(BrakeBy(c, 10), 10), 10),
                   0, tripTime + 2, tripSpeeds + 30, totalTime + 2, totalSpeeds + 30, fuel)
  {
    BrakeDriven(c, 10, 30, tripTime, tripSpeeds, totalTime, totalSpeeds, fuel);
    var c1 := BrakeBy(c, 10);
    BrakeDriven(c1, 10, 20, tripTime + 1, tripSpeeds + 20, totalTime + 1, totalSpeeds + 20, fuel);
    var c2 := BrakeBy(c1, 10);
    BrakeDriven(c2, 10, 10, tripTime + 2, tripSpeeds + 30, totalTime + 2, totalSpeeds + 30, fuel);
  }

  /** Two more accelerations toward 30 km/h at 30 km/h: two driving seconds at 30 km/h. */
  lemma CruiseAtThirty(c: Car, tripTime: int, tripSpeeds: int, totalTime: int, totalSpeeds: int, fuel: real)
    requires Driven(c, 30, tripTime, tripSpeeds, totalTime, totalSpeeds, fuel)
    requires fuel > 2.0 * MAX_TABLE_CONSUMPTION
    ensures Driven(Accelerate(Accelerate(c, 30), 30),
                   30, tripTime + 2, tripSpeeds + 60, totalTime + 2, totalSpeeds + 60, fuel - 2.0 * MAX_TABLE_CONSUMPTION)
  {
    AccelerateDriven(c, 30, 30, tripTime, tripSpeeds, totalTime, totalSpeeds, fuel);
    var c1 := Accelerate(c, 30);
    AccelerateDriven(c1, 30, 30, tripTime + 1, tripSpeeds + 30, totalTime + 1, totalSpeeds + 30,
                     fuel - MAX_TABLE_CONSUMPTION);
  }

  /** Two accelerations toward 20 km/h from standstill: driving seconds at 10 and 20 km/h. */
  lemma StartToTwenty(c: Car, tripTime: int, tripSpeeds: int, totalTime: int, totalSpeeds: int, fuel: real)
    requires Driven(c, 0, tripTime, tripSpeeds, totalTime, totalSpeeds, fuel)
    requires fuel > 2.0 * MAX_TABLE_CONSUMPTION
    ensures Driven(Accelerate(Accelerate(c, 20), 20),
                   20, tripTime + 2, tripSpeeds + 30, totalTime + 2, totalSpeeds + 30, fuel - 2.0 * MAX_TABLE_CONSUMPTION)
  {
    AccelerateDriven(c, 20, 0, tripTime, tripSpeeds, totalTime, totalSpeeds, fuel);
    var c1 := Accelerate(c, 20);
    AccelerateDriven(c1, 20, 10, tripTime + 1, tripSpeeds + 10, totalTime + 1, totalSpeeds + 10,
                     fuel - MAX_TABLE_CONSUMPTION);
  }

  /** Three brakes by 10 km/h after three driving seconds at 10, 20 and 30 km/h:
      five driving seconds averaging 18 km/h. */
  lemma BrakeAfterThirtyAverages(c: Car, fuel: real)
    requires Driven(c, 30, 3, 60, 3, 60, fuel)
    ensures Computers.AverageSpeed(BrakeBy(BrakeBy(BrakeBy(c, 10), 10), 10).computer.trip) == 18.0
    ensures Computers.AverageSpeed(BrakeBy(BrakeBy(BrakeBy(c, 10), 10), 10).computer.total) == 18.0
  {
    BrakeFromThirty(c, 3, 60, 3, 60, fuel);
    MeanSpeeds(BrakeBy(BrakeBy(BrakeBy(c, 10), 10), 10), 0, 5, 90, 5, 90, fuel, 18.0, 18.0);
  }

  /** ... then three brakes by 10 km/h: five driving seconds at
      10 + 20 + 30 + 20 + 10 km/h average 18 km/h (TestAverageSpeed1). */
  lemma AverageSpeed1()
    ensures var c := BrakeBy(BrakeBy(BrakeBy(
                       Accelerate(Accelerate(Accelerate(RunningIdle(RunningIdle(EngineStart(Default()))), 30), 30), 30),
                       10), 10), 10);
            && Computers.AverageSpeed(c.computer.trip) == 18.0
            && Computers.AverageSpeed(c.computer.total) == 18.0
  {
    IdleThenThirty();
    BrakeAfterThirtyAverages(
      Accelerate(Accelerate(Accelerate(RunningIdle(RunningIdle(EngineStart(Default()))), 30), 30), 30),
      20.0 - 5.0 * MAX_TABLE_CONSUMPTION);
  }

  /** Start, two idle seconds, five accelerations toward 30 km/h and three
      brakes by 10 km/h: seven driving seconds adding up to 150 km/h. */
  lemma DriveToThirtyAndBrake()
    ensures Driven(BrakeBy(BrakeBy(BrakeBy(Accelerate(Accelerate(
                     Accelerate(Accelerate(Accelerate(RunningIdle(RunningIdle(EngineStart(Default()))), 30), 30), 30),
                     30), 30), 10), 10), 10),
                   0, 7, 150, 7, 150, 20.0 - 7.0 * MAX_TABLE_CONSUMPTION)
  {
    IdleThenThirty();
    var c6 := Accelerate(Accelerate(Accelerate(RunningIdle(RunningIdle(EngineStart(Default()))), 30), 30), 30);
    CruiseAtThirty(c6, 3, 60, 3, 60, 20.0 - 5.0 * MAX_TABLE_CONSUMPTION);
    BrakeFromThirty(Accelerate(Accelerate(c6, 30), 30), 5, 120, 5, 120, 20.0 - 7.0 * MAX_TABLE_CONSUMPTION);
  }

  /** A trip reset after seven driving seconds adding up to 150 km/h, then
      two accelerations toward 20 km/h: the trip averages 15 km/h, the total
      20 km/h. */
  lemma ResetThenTwentyAverages(c: Car, fuel: real)
    requires Driven(c, 0, 7, 150, 7, 150, fuel) && fuel > 2.0 * MAX_TABLE_CONSUMPTION
    ensures Computers.AverageSpeed(Accelerate(Accelerate(TripReset(c), 20), 20).computer.trip) == 15.0
    ensures Computers.AverageSpeed(Accelerate(Accelerate(TripReset(c), 20), 20).computer.total) == 20.0
  {
    var t := TripReset(c);
    assert Driven(t, 0, 0, 0, 7, 150, fuel);
    StartToTwenty(t, 0, 0, 7, 150, fuel);
    MeanSpeeds(Accelerate(Accelerate(t, 20), 20), 20, 2, 30, 9, 180, fuel - 2.0 * MAX_TABLE_CONSUMPTION, 15.0, 20.0);
  }

  /** ... then a trip reset and two accelerations toward 20 km/h: the trip
      averages 10 and 20 km/h to 15 km/h, the total 180 km/h over nine
      driving seconds to 20 km/h (TestAverageSpeedAfterTripReset). */
  lemma AverageSpeedAfterTripReset()
    ensures var c := Accelerate(Accelerate(TripReset(
                       BrakeBy(BrakeBy(BrakeBy(Accelerate(Accelerate(
                         Accelerate(Accelerate(Accelerate(RunningIdle(RunningIdle(EngineStart(Default()))), 30), 30), 30),
                         30), 30), 10), 10), 10)),
                       20), 20);
            && Computers.AverageSpeed(c.computer.trip) == 15.0
            && Computers.AverageSpeed(c.computer.total) == 20.0
  {
    DriveToThirtyAndBrake();
    ResetThenTwentyAverages(
      BrakeBy(BrakeBy(BrakeBy(Accelerate(Accelerate(
        Accelerate(Accelerate(Accelerate(RunningIdle(RunningIdle(EngineStart(Default()))), 30), 30), 30),
        30), 30), 10), 10), 10),
      20.0 - 7.0 * MAX_TABLE_CONSUMPTION);
  }
}
